=== FILE: README.md ===
# Swap engine model

A Dafny model of the swap engine that pays out Solar (SXP) coins for token
deposits made on Ethereum (ETH) and Binance Smart Chain (BSC).

Once a minute the engine runs one *tick* (`_run`, src/swapper.ts). A tick
does four things in order:

1. It reloads the payout nonce from the Solar ledger when the last
   successful send is more than fifteen minutes old.
2. It scans ETH and then BSC for new deposits. Each one becomes a swap
   record.
3. It settles up to fifty confirmed records. For each record it:
   - looks for an earlier payout tagged `network:transactionId`;
   - checks the payout account's balance;
   - locks the record, takes the next nonce and sends the payout.

   A failed send marks its record as in error and abandons the rest of the
   batch.
4. It promotes pending deposits to confirmed once they are more than 40
   blocks deep.

The wallet adapters (src/wallets/solar.ts, src/wallets/erc20.ts) shape the
raw answers of the two ledgers into the summaries the engine reads. The
shaping covers:

- amount conversion with Big.js under round-down;
- confirmation depth and status;
- the contract filter;
- the event scan window and its block order;
- the nonce and funds logic of a Solar send.

The project has nine modules:

| module | file | models |
|---|---|---|
| `Wrappers` | wrappers.dfy | `Option`, `Result` and the reason a promise is rejected with |
| `Decimal` | decimal.dfy | the Big.js operations the code relies on: parsing, `toFixed`, `gt` and `times(10^n).toFixed(0)`, and `String(n)` |
| `Records` | records.dfy | the swap record of src/model/swap.ts and the store's queries |
| `Solar` | solar.dfy | the Solar adapter |
| `Erc20` | erc20.dfy | the ERC20/BEP20 adapter |
| `Ingestion` | ingestion.dfy | `_checkNewTransactions` as functions of the store |
| `Tracking` | tracking.dfy | `checkPendingTransactions` as a function of the store |
| `Settlement` | settlement.dfy | `swapConfirmedTransactions` as a function of the engine's state, with the properties of a batch |
| `SwapEngine` | swapper.dfy | the engine as a class and the tick as a function, with the properties of a tick |

The engine is the class `SwapEngine.Swapper`. Its fields are:

- `store`: the records, in insertion order. The position of a record is its
  id, and the order of the sequence is the database's natural order.
- `currentNonce`.
- `lastSend`.

Each stage is a method with loops that changes these fields. Each method is
proved to produce exactly what a specification function says: `Scan`,
`Settle`, `Track` and `Tick`. The lemmas about those functions state what a
batch and a tick guarantee.

Everything the engine learns from outside is a parameter:

- every answer of a ledger or the database (transaction lists, transaction
  details, address validation, balances, the outcome of a send);
- every reading of the clock.

The settlement answers are functions of the record's position in the batch.
Each tracking answer is a function of the transaction id.

## Model

| member | source | states |
|---|---|---|
| `Decimal.DigitsOf` | src/swapper.ts:209 | `String(n)` of a natural: digits only, no leading zero, denoting `n` |
| `Decimal.FixedDigits` | src/wallets/solar.ts:181-183 | the fraction digits `toFixed` prints: exactly `width` digits denoting `n mod 10^width` |
| `Decimal.ParseToFixed` | src/wallets/solar.ts:181-183 | `Big(units).div(10^p).toFixed(p)` parses back to exactly `units / 10^p`: the conversion loses nothing |
| `Decimal.FirstDot` | src/swapper.ts:257 | the split point of a decimal text: the first `.`, or the end when there is none |
| `Decimal.GreaterIsValueOrder` | src/swapper.ts:257 | Big.js `gt` on two decimals holds exactly when the first value is strictly greater |
| `Decimal.Units` | src/wallets/solar.ts:390-392 | `Big(amount).times(10^p).toFixed(0)` under round-down is the whole part of `amount * 10^p` |
| `Decimal.DigitsDropThree` | src/swapper.ts:209 | dropping the last three digits of `String(n)` gives `String(n / 1000)` for `n >= 1000`, and nothing below |
| `Solar.ToCoinsExact` | src/wallets/solar.ts:181-183 | the coin text of an amount in base units parses back to that amount with 8 decimals |
| `Solar.Status` | src/wallets/solar.ts:191 | "confirmed" exactly when the confirmations are positive |
| `Solar.TransactionInfo` | src/wallets/solar.ts:129-267 | resolves exactly when the transaction and its block both have data; no transaction data rejects with "Not Found", a block without data with the "Block Not Found" that `getBlockById` rejects with |
| `Solar.GetTransaction` | src/wallets/solar.ts:159-267 | the summary `getTransaction` settles with is `TransactionInfo` of the two API answers, the multi-payment total and details accumulated in a loop |
| `Solar.MultiTransfer` | src/wallets/solar.ts:212-231 | the loop over a multi-payment accumulates exactly the sum of the payment amounts and one detail per payment, in order |
| `Solar.PaymentTotalAppend` | src/wallets/solar.ts:216-219 | the accumulated total is additive over consecutive payments |
| `Solar.PaymentTotalCovers` | src/wallets/solar.ts:216-219 | each payment's amount is part of the total, by splitting the payments around it |
| `Solar.TransactionInfoShape` | src/wallets/solar.ts:176-258 | with both answers present the promise resolves; the summary exists exactly for types 0 and 6 and carries the transaction id, the block height, and "confirmed" exactly when confirmations are positive |
| `Solar.TransferInfoShape` | src/wallets/solar.ts:178-211 | a transfer has one detail, from its sender to its recipient, and its amount in coins as the total |
| `Solar.MultiPaymentInfoShape` | src/wallets/solar.ts:212-255 | a multi-payment reports the sum of its payments as its total, which no payment exceeds, and one detail per payment in payment order, from the sender to that payment's recipient |
| `Solar.TxEntries` | src/wallets/solar.ts:576-612 | a type-0 transaction yields nothing when its recipient is not watched and otherwise exactly its entry (id, recipient, amount in coins, fee and confirmations 0); types other than 0 and 6 yield nothing |
| `Solar.GetRecentTransactions` | src/wallets/solar.ts:543-621 | settles exactly when the block list, and the transaction list of every block reporting transactions, have `data`; then the nested loops produce exactly `RecentEntries`, a failed block list or block fetch counting as empty |
| `Solar.ScanBlock` | src/wallets/solar.ts:562-615 | a block reporting no transactions gives nothing; otherwise its transaction list gives its entries, and one without `data` never settles |
| `Solar.ScanBlockTransactions` | src/wallets/solar.ts:574-613 | the middle loop produces exactly the entries of the block's transactions, in order |
| `Solar.ScanPayments` | src/wallets/solar.ts:594-611 | the inner loop produces exactly the entries of the watched payments, in payment order |
| `Solar.PaymentEntriesWatched` | src/wallets/solar.ts:597-609 | every entry of a multi-payment pays a watched address, with fee 0 and 0 confirmations |
| `Solar.TxListEntriesWatched` | src/wallets/solar.ts:574-612 | every entry of a block pays a watched address, with fee 0 and 0 confirmations |
| `Solar.RecentEntriesWatched` | src/wallets/solar.ts:560-616 | every entry reported pays a watched address, with fee 0 and 0 confirmations |
| `Solar.PaymentEntriesAllWatched` | src/wallets/solar.ts:594-611 | when all recipients are watched, a multi-payment yields one entry per payment, the i-th for the i-th payment |
| `Solar.PaymentEntriesNoneWatched` | src/wallets/solar.ts:594-611 | when no recipient is watched, a multi-payment yields nothing |
| `Solar.PaymentEntriesAppend` | src/wallets/solar.ts:594-611 | the entries of a multi-payment are those of its parts in order, so each watched payment gives one entry in its place and the others none |
| `Solar.GetTransactionsBySenderRecipient` | src/wallets/solar.ts:485-541 | never settles exactly when the answer has no `data`; a failed fetch gives the empty list; otherwise the answer is mapped one to one, in order, keeping id, vendor field and unix timestamp, the amount in coins parsing back to the base units |
| `Solar.GetBalance` | src/wallets/solar.ts:269-290 | rejects exactly when the fetch fails; "0" when the answer has no data or no balance; otherwise the balance in coins, parsing back to the base units exactly |
| `Solar.SendTransaction` | src/wallets/solar.ts:373-483 | a wallet answer without data or balance, or an amount that does not parse, gives "Unknown Error" and no broadcast; insufficient funds (amount plus fee in base units above the balance) settles as "Insufficient Funds!"; with enough funds, a throwing address validator gives "Unknown Error", an invalid recipient "Invalid Recipient Address!", a failed signing or a throwing broadcast request "Unknown Error", and otherwise the answers are read in order: one whose `data` lacks `accept` gives "Unknown Error", the first that accepts gives its id, else the first answer's error, else the promise never settles; the transfer is broadcast exactly when the funds check and the validator ran and signing succeeded, even after a rejection, and carries the amount and fee in base units, the chosen nonce and the payment tag |
| `Solar.SendNonce` | src/wallets/solar.ts:415-426 | the nonce of the transfer is the override when given, otherwise the wallet's nonce plus one, or 1 when the wallet has none |
| `Erc20.Lower` | src/wallets/erc20.ts:103 | lower-casing maps each character in place and leaves no upper-case ASCII letter |
| `Erc20.LowerMatches` | src/wallets/erc20.ts:102-106 | two addresses compare equal after lower-casing exactly when they differ at most in the case of ASCII letters |
| `Erc20.LowerIdempotent` | src/wallets/erc20.ts:103 | lower-casing a lowered address changes nothing |
| `Erc20.Depth` | src/wallets/erc20.ts:127-145 | a positive depth only for a known height and a mined block, equal to their distance; that distance whenever the height is positive and not below the block; 0 otherwise |
| `Erc20.GetTransaction` | src/wallets/erc20.ts:95-219 | "ERC20: Transaction Not Found" without a transaction or hash, or when it is not sent to the swap contract (case-insensitive) with input; then a missing block rejects with "BSC20: Block Not Found" and a throwing block lookup with its exception; resolves exactly when the block is fetched, the receipt is asked for and present, and the input decodes as `swapSXP` with two inputs; then the summary carries the hash, the configured token and contract, the message from input 1, the sender, the amount from `fromWei` as total and detail amount, "confirmed" status exactly for a mined block, and the clamped depth as confirmations, 0 when the receipt's status is false |
| `Erc20.ScanWindow` | src/wallets/erc20.ts:246-248 | the window ends 10 blocks below the head and spans 2000 blocks whatever `scanblocks` says |
| `Erc20.InsertByBlock` | src/wallets/erc20.ts:267 | inserting into an ascending sequence keeps it ascending and adds exactly the one event |
| `Erc20.SortByBlock` | src/wallets/erc20.ts:267 | the events sorted ascending by block number, a permutation of the input |
| `Erc20.RecentTransactions` | src/wallets/erc20.ts:240-290 | resolves exactly when the head and the event query both resolve, and otherwise rejects with the reason of the first that failed |
| `Erc20.EntriesOf` | src/wallets/erc20.ts:268-279 | one entry per event, in the same order |
| `Erc20.RecentTransactionsOrder` | src/wallets/erc20.ts:266-279 | one entry per event, with non-increasing confirmations |
| `Erc20.RecentTransactionsFromEvents` | src/wallets/erc20.ts:266-279 | every entry is the entry of an event of the answer, with `toBlock - blockNumber` confirmations, within 0..2000 for an event of the window |
| `Erc20.RecentTransactionsCoverEvents` | src/wallets/erc20.ts:266-279 | no event of the answer is lost: each has its entry in the list |
| `Records.Select` | src/swapper.ts:165-168 | a `find`: exactly the ids of the records the filter keeps, in store order |
| `Records.Batch` | src/swapper.ts:198-202 | at most 50 settleable ids, ascending, with no settleable record before a batch member left out, so the batch is the first 50 in store order; every settleable record when fewer than 50 |
| `Ingestion.NewRecord` | src/swapper.ts:116-151 | a new record is confirmed exactly with more than 35 confirmations, has `confirmedAt` = now exactly then, is unswapped, carries the chain and the deposit's id, sender, token, confirmations, amount and destination, with no transaction timestamp, and is in error with "Invalid SXP Address" exactly when validation does not answer true |
| `Ingestion.IngestOne` | src/swapper.ts:91-152 | one listed deposit adds one record exactly when its id is new and its fetch succeeds with the configured contract and token; the store is otherwise unchanged, and existing records are never touched |
| `Ingestion.IngestKeepsExisting` | src/swapper.ts:90-154 | a scan appends at most one record per listed deposit and leaves the stored records as they were |
| `Ingestion.IngestNewRecords` | src/swapper.ts:90-154 | every appended record is the new record of a listed deposit that was new and accepted |
| `Ingestion.IngestUnique` | src/swapper.ts:93-97 | with answers for the transaction asked about, a scan never stores a transaction id twice |
| `Ingestion.IngestWellFormed` | src/swapper.ts:134-151 | a scan keeps every record well formed |
| `Tracking.Track` | src/swapper.ts:162-195 | only pending records change, only when the lookup succeeds with more than 40 confirmations, and then only their confirmations, flag and time; well-formedness is kept |
| `Settlement.CheckTimestamp` | src/swapper.ts:209 | the lookup time is `confirmedAt / 1000` from 1000 on, and NaN below |
| `Settlement.LastMatchIndex` | src/swapper.ts:220-241 | the position of the last listed payout carrying the tag, or -1 when none does |
| `Settlement.FindEarlierPayout` | src/swapper.ts:218-241 | the inner loop ends with the last listed payout whose vendor field is the record's tag |
| `Settlement.BalanceOkMeans` | src/swapper.ts:246-264 | the balance gate passes exactly when the balance was fetched and strictly exceeds the quantity; a failed fetch counts as 0 |
| `Settlement.Gates` | src/swapper.ts:205-264 | one gate per batch record, read from the record as the batch was fetched |
| `Settlement.SettleOne` | src/swapper.ts:204-322 | one record: an earlier payout marks it swapped with that payout's id and time and sends nothing; a failed balance gate leaves everything as it was; otherwise the record is locked and one send made with the next nonce; success records the payout and the send time, failure marks the record in error and ends the batch, a send that never settles leaves it locked |
| `Settlement.SettleFrom` | src/swapper.ts:204-323 | the rest of the batch leaves the store's size unchanged |
| `Settlement.SettleFrame` | src/swapper.ts:204-323 | settlement only changes the payout fields of batch records |
| `Settlement.SettleNonces` | src/swapper.ts:279-288 | without a nonce nothing is sent; otherwise each send takes the next nonce, none is rolled back, and the engine ends on the last |
| `Settlement.SettleAttempts` | src/swapper.ts:266-288 | each send is for a batch record that had no earlier payout and passed the balance gate |
| `Settlement.SettleAttemptsOrdered` | src/swapper.ts:204 | sends happen in batch order |
| `Settlement.SettleGated` | src/swapper.ts:220-265 | a reached record with an earlier payout is marked paid, one failing the gate is untouched |
| `Settlement.SettleResolved` | src/swapper.ts:292-302 | each successful send marks its record swapped with the returned id and the send time |
| `Settlement.SettleUnresolved` | src/swapper.ts:305-319 | only the last send can fail or hang, and it ends the batch on its record |
| `Settlement.SettleStopRecord` | src/swapper.ts:305-319 | the record a batch stops on is marked in error, or left locked when the send never settles |
| `Settlement.SettleWellFormed` | src/swapper.ts:204-323 | the rest of the batch keeps every record well formed |
| `Settlement.SettleSends` | src/swapper.ts:197-324 | every send is for a settleable batch record with no earlier payout and a passing gate, in batch order, with nonces following the engine's one by one |
| `Settlement.SettleSkips` | src/swapper.ts:220-271 | records outside the batch are untouched; reached records with an earlier payout are marked paid, those failing the gate are untouched |
| `Settlement.SettleEndings` | src/swapper.ts:292-319 | successful sends mark their records; a failed or hung send is the last one and names the stop record, which is marked in error or left locked |
| `Settlement.SettleKeepsWellFormed` | src/swapper.ts:197-324 | settlement keeps every record well formed |
| `SwapEngine.Swapper.constructor` | src/swapper.ts:25-45 | the engine starts on the records the database already holds, locked ones included, with the nonce the ledger gave and the start time |
| `SwapEngine.Swapper.CheckNewTransactions` | src/swapper.ts:79-155 | the scan loop changes the store exactly as `Scan` does, and fails exactly when the deposit list cannot be fetched |
| `SwapEngine.Swapper.SwapOne` | src/swapper.ts:205-321 | one pass of the batch loop changes the engine exactly as `SettleOne` does |
| `SwapEngine.Swapper.SwapConfirmedTransactions` | src/swapper.ts:197-324 | the batch loop leaves the engine, the sends and the way the batch ended exactly as `Settle` does |
| `SwapEngine.Swapper.CheckPendingTransactions` | src/swapper.ts:162-195 | the tracking loop changes the store exactly as `Track` does and nothing else |
| `SwapEngine.Swapper.Run` | src/swapper.ts:61-74 | one tick changes the engine exactly as `Tick` does: nonce refresh after 900000 ms, then ETH, BSC, settlement and tracking in that order, a rejection skipping every later stage |
| `SwapEngine.ScanEvolves` | src/swapper.ts:90-154 | a scan only appends |
| `SwapEngine.SettleEvolves` | src/swapper.ts:197-324 | settlement only changes payout fields of settleable records |
| `SwapEngine.TrackEvolves` | src/swapper.ts:162-195 | tracking only changes pending records |
| `SwapEngine.TickEvolves` | src/swapper.ts:61-74 | over a tick, however it ends, no record is removed; deposit fields never change; a confirmation is never withdrawn; a record in error, or swapped after confirmation, is never touched again |
| `SwapEngine.TickWellFormed` | src/swapper.ts:61-74 | a tick keeps every record well formed |
| `SwapEngine.TickUnique` | src/swapper.ts:61-74 | with answers for the transaction asked about, a tick never stores a transaction id twice |
| `SwapEngine.SettleNonce` | src/swapper.ts:279-288 | the sends of a batch use the nonces after the engine's, one by one, and the engine ends on the last |
| `SwapEngine.TickNonce` | src/swapper.ts:65-72 | the nonce is reloaded only when the last send is more than fifteen minutes old; a tick cut short sends nothing; the tick's sends use the nonces after the reloaded or kept one, one by one |
| `SwapEngine.TickReload` | src/wallets/solar.ts:355-371 | a reloading tick whose wallet fetch fails or has no data rejects before any stage and leaves the engine as it was; otherwise its sends start from the wallet's nonce field as `getCurrentNonce` reads it |

## Left out

- Network and database I/O is not modelled. HTTP calls, web3 RPC and the
  mongoose queries become parameters or model state.
- The store is a sequence indexed by record id, not a map. The database's
  ids are taken to be insertion positions.
- Concurrency is left out:
  - `setInterval` has no reentrancy guard, so ticks can overlap;
  - the tracker's unawaited `forEach(async ...)` lets its lookups run
    concurrently;
  - the `sleep` calls.

  A tick is modelled as one sequential step and the tracker as a
  sequential loop.
- `Swapper.Run`: a send that never settles stops the model's tick there,
  with status `Stalled`. In the source that tick hangs forever while later
  ticks keep starting.
- `Ledger`: settlement answers are keyed by the record's position in the
  batch. Only one clock value is used per send, for both `swappedAt` and
  `lastSend`; the source reads `Date.now()` twice.
- `ScanAnswers` and `TrackAnswers`: one clock value per stage.
- The fee estimate is an integer base-unit input of `Solar.SendTransaction`.
  `getFeeEstimate` and the `0.05` default are left out.
- Transaction building and signing become the boolean `signs`.
- ABI decoding is the input `Decoded`, `fromWei` a function parameter,
  and address validation an input.
- `getNetworkInfo`, `getBlock` and `getBlockById` become their answers
  (chain height, block found or how the lookup failed).
- Exceptions are not told apart: every thrown error becomes the reason
  `Thrown`, whatever its message. Only rejection texts the code writes
  itself are kept.
- `Solar.SendTransaction`: the validator's verdict is an input, `None` when
  it throws. A post request that throws ends the send with "Unknown Error"
  whichever of the three it was; the later requests are then not made.
- `Solar.GetTransactionsBySenderRecipient` and `Solar.GetRecentTransactions`:
  answer rows are taken to be well formed. A row without `timestamp`, with
  a non-numeric amount, or a multi-payment without `asset.payments` makes
  the source's loop throw and its promise never settle; the model has no
  such rows.
- `Settlement.Ledger`: the payout listing settlement reads is a list, so the
  model's batch never waits on a listing that never settles.
- `Erc20.Lower` lowers ASCII letters only, where `toLowerCase` lowers every
  Unicode letter. The addresses it compares are hexadecimal.
- `Decimal.Parse` accepts plain notation only: digits with an optional
  fraction. Big.js also accepts signs and exponents, which no amount in
  this code uses.
- `Erc20.SortByBlock` is an insertion sort that keeps equal block numbers in
  input order. Array `sort` stability is not modelled beyond this.
- `getNewAddress`, `validateAddress`, `getFeeEstimate`, the ERC20
  `getBalance`, logging and the AES helpers in src/utils are not part of
  this model.
- The engine's start-up, which loads the configuration, connects to the
  database and fetches the first nonce, is reduced to `Swapper.constructor`,
  which takes the stored records as they are.

### Where the code and its description differ

The model follows the code in each of these places.

- The stage order is ingestion, settlement, tracking.
- Deduplication is by `transactionId` only. The lookup uses the listed id,
  while the record stores the fetched summary's `txid`. `IngestUnique`
  assumes the two agree.
- A record whose destination address is invalid can still be confirmed.
- `sendTransaction` does not return after rejecting for insufficient funds
  or an invalid recipient. The transfer is still built and broadcast, and
  the promise keeps its first settlement.
- A send for which no provider accepts the transfer and the first reports
  no error never settles.
- A record is locked (`isSwapped` set) before its send, and the batch
  query only takes records that are not swapped. A record locked by a send
  that crashed or never settled is therefore never taken again, and the
  tagged-payout check cannot recover it: no crash recovery follows from the
  code. `TickEvolves` states that such a record is never changed again.

=== FILE: decimal.dfy ===
/** Arbitrary-precision decimals as the engine uses them through Big.js with
    rounding mode 0 (round down): decimal strings, their values, comparison and
    the base-unit conversions of the wallets. */
module Decimal {
  import opened Wrappers

  function Pow10(n: nat): (p: nat)
    ensures p >= 1
  {
    if n == 0 then 1 else 10 * Pow10(n - 1)
  }

  predicate IsDigit(c: char) {
    '0' <= c <= '9'
  }

  predicate AllDigits(s: string) {
    forall i | 0 <= i < |s| :: IsDigit(s[i])
  }

  function DigitChar(d: nat): (c: char)
    requires d < 10
    ensures IsDigit(c) && (c as int) - ('0' as int) == d
  {
    ('0' as int + d) as char
  }

  /** The natural number a string of decimal digits denotes (leading zeros allowed). */
  function NatOf(s: string): nat
    requires AllDigits(s)
  {
    if s == [] then 0 else 10 * NatOf(s[..|s| - 1]) + ((s[|s| - 1] as int) - ('0' as int))
  }

  /** The shortest decimal rendering of `n`, as JavaScript's `String(n)` gives it. */
  function DigitsOf(n: nat): (s: string)
    ensures AllDigits(s) && 1 <= |s|
    ensures NatOf(s) == n
    ensures |s| > 1 ==> s[0] != '0'
  {
    if n < 10 then [DigitChar(n)]
    else
      var s := DigitsOf(n / 10) + [DigitChar(n % 10)];
      assert s[..|s| - 1] == DigitsOf(n / 10);
      s
  }

  /** Exactly `width` digits: the last `width` digits of `n`, zero-padded. */
  function FixedDigits(n: nat, width: nat): (s: string)
    ensures |s| == width && AllDigits(s)
    ensures NatOf(s) == n % Pow10(width)
  {
    if width == 0 then []
    else
      var s := FixedDigits(n / 10, width - 1) + [DigitChar(n % 10)];
      assert s[..|s| - 1] == FixedDigits(n / 10, width - 1);
      ModTen(n, Pow10(width - 1));
      s
  }

  lemma ModTen(n: nat, p: nat)
    requires p >= 1
    ensures n % (10 * p) == 10 * ((n / 10) % p) + n % 10
  {
    var q, d := n / 10, n % 10;
    var a, b := q / p, q % p;
    assert n == (10 * p) * a + (10 * b + d) by {
      assert n == 10 * q + d;
      assert q == p * a + b;
    }
    DivModUnique(n, 10 * p, a, 10 * b + d);
  }

  lemma DivModUnique(n: int, m: int, a: int, b: int)
    requires m > 0 && 0 <= b < m && n == m * a + b
    ensures n % m == b && n / m == a
  {
    var a', b' := n / m, n % m;
    assert m * a' + b' == m * a + b;
    if a' > a {
      assert m * a' >= m * (a + 1) by { MulMono(m, a + 1, a'); }
      assert false;
    } else if a' < a {
      assert m * a >= m * (a' + 1) by { MulMono(m, a' + 1, a); }
      assert false;
    }
  }

  lemma MulMono(m: int, x: int, y: int)
    requires m > 0 && x <= y
    ensures m * x <= m * y
  {
  }

  /** `Big(units).div(10^places).toFixed(places)`: exact for an integer of base units. */
  function ToFixed(units: nat, places: nat): string {
    if places == 0 then DigitsOf(units)
    else WholeDigits(units, places) + "." + FixedDigits(units, places)
  }

  /** The digits before the decimal point of `units / 10^places`. */
  function WholeDigits(units: nat, places: nat): string {
    DigitsOf(Div(units, Pow10(places)))
  }

  function Div(n: nat, m: nat): nat
    requires m >= 1
  {
    n / m
  }

  /** A decimal value `mant / 10^scale`. */
  datatype Dec = Dec(mant: nat, scale: nat)

  /** The real number a decimal stands for. */
  function Value(d: Dec): real {
    d.mant as real / Pow10(d.scale) as real
  }

  /** Position of the first '.' in `s`, or |s| when there is none. */
  function FirstDot(s: string): (i: nat)
    ensures i <= |s|
    ensures i < |s| ==> s[i] == '.'
    ensures forall j | 0 <= j < i :: s[j] != '.'
  {
    if s == [] || s[0] == '.' then 0 else 1 + FirstDot(s[1..])
  }

  /** The plain-notation decimals Big.js accepts: digits, optionally followed by
      a '.' and more digits, or a '.' followed by at least one digit. `None` is
      a string Big.js refuses by throwing. */
  function Parse(s: string): Option<Dec> {
    var i := FirstDot(s);
    if i == |s| then
      if |s| > 0 && AllDigits(s) then Some(Dec(NatOf(s), 0)) else None
    else
      var whole, frac := s[..i], s[i + 1..];
      if AllDigits(whole) && AllDigits(frac) && |whole| + |frac| > 0 then
        assert AllDigits(whole + frac) by {
          forall k | 0 <= k < |whole + frac| ensures IsDigit((whole + frac)[k]) {
            if k < |whole| { assert (whole + frac)[k] == whole[k]; }
            else { assert (whole + frac)[k] == frac[k - |whole|]; }
          }
        }
        Some(Dec(NatOf(whole + frac), |frac|))
      else None
  }

  lemma {:induction false} NatOfAppend(a: string, b: string)
    requires AllDigits(a) && AllDigits(b)
    ensures AllDigits(a + b)
    ensures NatOf(a + b) == NatOf(a) * Pow10(|b|) + NatOf(b)
  {
    assert AllDigits(a + b) by {
      forall k | 0 <= k < |a + b| ensures IsDigit((a + b)[k]) {
        if k < |a| { assert (a + b)[k] == a[k]; }
        else { assert (a + b)[k] == b[k - |a|]; }
      }
    }
    if b == [] {
      assert a + b == a;
    } else {
      var b' := b[..|b| - 1];
      var c := b[|b| - 1];
      assert (a + b)[..|a + b| - 1] == a + b';
      assert (a + b)[|a + b| - 1] == c;
      NatOfAppend(a, b');
      var d := (c as int) - ('0' as int);
      assert NatOf(a + b) == 10 * NatOf(a + b') + d;
      assert NatOf(b) == 10 * NatOf(b') + d;
      assert Pow10(|b|) == 10 * Pow10(|b'|);
      Distribute(NatOf(a), Pow10(|b'|), NatOf(b'), d);
    }
  }

  lemma Distribute(x: int, p: int, y: int, d: int)
    ensures 10 * (x * p + y) + d == x * (10 * p) + (10 * y + d)
  {
  }

  lemma FirstDotOfDigits(s: string)
    requires AllDigits(s)
    ensures FirstDot(s) == |s|
  {
    var i := FirstDot(s);
    if i < |s| {
      assert false;
    }
  }

  lemma FirstDotAfterDigits(w: string, f: string)
    requires AllDigits(w)
    ensures FirstDot(w + "." + f) == |w|
  {
    var s := w + "." + f;
    var i := FirstDot(s);
    if i < |w| {
      assert false;
    }
    assert s[|w|] == '.';
  }

  lemma DivModRecompose(n: nat, m: nat)
    requires m >= 1
    ensures (n / m) * m + n % m == n
  {
  }

  /** Formatting base units and parsing the text back gives the same amount:
      the conversion is exact, nothing is rounded away. */
  lemma ParseToFixed(units: nat, places: nat)
    ensures Parse(ToFixed(units, places)) == Some(Dec(units, places))
  {
    var s := ToFixed(units, places);
    if places == 0 {
      FirstDotOfDigits(s);
    } else {
      var p := Pow10(places);
      var w := WholeDigits(units, places);
      var f := FixedDigits(units, places);
      assert s == w + "." + f;
      FirstDotAfterDigits(w, f);
      assert s[..|w|] == w;
      assert s[|w| + 1..] == f;
      NatOfAppend(w, f);
      DivModRecompose(units, p);
      assert NatOf(w + f) == units;
    }
  }

  /** `m * 10^n`, by shifting in `n` zeros. */
  function Shift(m: nat, n: nat): nat {
    if n == 0 then m else 10 * Shift(m, n - 1)
  }

  lemma {:induction false} ShiftIsProduct(m: nat, n: nat)
    ensures Shift(m, n) == m * Pow10(n)
  {
    if n > 0 {
      ShiftIsProduct(m, n - 1);
      calc {
        Shift(m, n);
        10 * (m * Pow10(n - 1));
        m * (10 * Pow10(n - 1));
      }
    }
  }

  /** `a` is strictly greater than `b` (Big.js `gt`): both brought to the same
      scale, the mantissas compare. */
  predicate Greater(a: Dec, b: Dec) {
    Shift(a.mant, b.scale) > Shift(b.mant, a.scale)
  }

  /** The integer comparison above is the comparison of the decimals' values. */
  lemma GreaterIsValueOrder(a: Dec, b: Dec)
    ensures Greater(a, b) <==> Value(a) > Value(b)
  {
    var pa, pb := Pow10(a.scale), Pow10(b.scale);
    ShiftIsProduct(a.mant, b.scale);
    ShiftIsProduct(b.mant, a.scale);
    CastProduct(a.mant, pb);
    CastProduct(b.mant, pa);
    CrossCompare(a.mant as real, b.mant as real, pa as real, pb as real);
  }

  lemma CastProduct(x: nat, y: nat)
    ensures (x * y) as real == (x as real) * (y as real)
  {
  }

  lemma CrossCompare(x: real, y: real, p: real, q: real)
    requires p > 0.0 && q > 0.0
    ensures x * q > y * p <==> x / p > y / q
  {
    var u, v := x / p, y / q;
    assert x == u * p;
    assert y == v * q;
    assert x * q - y * p == (u - v) * (p * q);
    assert p * q > 0.0;
  }

  lemma DivBounds(n: nat, m: nat)
    requires m >= 1
    ensures (n / m) * m <= n < (n / m + 1) * m
  {
  }

  /** `Big(d).times(10^places).toFixed(0)` under round-down: the whole number of
      base units in `d`, fractions of a unit dropped. */
  function Units(d: Dec, places: nat): (u: nat)
    ensures u * Pow10(d.scale) <= d.mant * Pow10(places) < (u + 1) * Pow10(d.scale)
  {
    var n, m := d.mant * Pow10(places), Pow10(d.scale);
    var q := Div(n, m);
    DivBounds(n, m);
    assert q * m <= n < (q + 1) * m;
    q
  }

  /** Dropping the last digit of the rendering of `n` renders `n / 10`. */
  lemma DigitsDropOne(n: nat)
    requires n >= 10
    ensures |DigitsOf(n)| >= 2
    ensures DigitsOf(n)[..|DigitsOf(n)| - 1] == DigitsOf(n / 10)
  {
    var s := DigitsOf(n);
    assert s == DigitsOf(n / 10) + [DigitChar(n % 10)];
  }

  lemma DigitsShort(n: nat)
    requires n < 1000
    ensures |DigitsOf(n)| <= 3
  {
    if n >= 10 {
      DigitsDropOne(n);
      if n / 10 >= 10 {
        DigitsDropOne(n / 10);
        assert n / 10 / 10 < 10;
      }
    }
  }

  lemma DivTen(n: nat)
    ensures n / 10 / 10 / 10 == n / 1000
  {
  }

  /** `String(n).slice(0, -3)`: the rendering of `n` without its last three
      digits; the text is empty for n < 1000. */
  lemma DigitsDropThree(n: nat)
    ensures n < 1000 ==> |DigitsOf(n)| <= 3
    ensures n >= 1000 ==> |DigitsOf(n)| > 3 && DigitsOf(n)[..|DigitsOf(n)| - 3] == DigitsOf(n / 1000)
  {
    if n < 1000 {
      DigitsShort(n);
    } else {
      var a := n / 10;
      var b := a / 10;
      DivTen(n);
      assert a >= 100 && b >= 10;
      DigitsDropOne(n);
      DigitsDropOne(a);
      DigitsDropOne(b);
      var s := DigitsOf(n);
      assert DigitsOf(a) == s[..|s| - 1];
      assert DigitsOf(b) == s[..|s| - 2];
      assert DigitsOf(b / 10) == s[..|s| - 3];
    }
  }
}

=== FILE: erc20.dfy ===
/** The deterministic logic inside the ERC20/BEP20 wallet adapter
    (src/wallets/erc20.ts): web3 answers, the ABI decoder and `fromWei` are
    inputs, the code around them is modelled as written. */
module Erc20 {
  import opened Wrappers
  import opened Decimal

  const NotFound := "ERC20: Transaction Not Found"
  const BlockNotFound := "BSC20: Block Not Found"

  /** Blocks left out at the head of the chain, and blocks scanned below that. */
  const HeadMargin := 10
  const ScanSpan := 2000

  /** Token amounts are integers of wei (18 decimals). */
  const WeiDecimals: nat := 18

  /** A transaction as `web3.eth.getTransaction` returns it; `hash` is "" when
      the answer has none, `blockNumber` is `None` for a pending transaction. */
  datatype EthTx = EthTx(hash: string, to: Option<string>, input: string, from: string,
                         blockHash: string, blockNumber: Option<nat>, value: nat, gas: nat, gasPrice: nat)

  /** How `getBlock` settles: the web3 call throws, it has no block, or the
      block is found (its time is not modelled). */
  datatype BlockReply = BlockThrew | NoBlock | BlockFound

  /** `getTransactionReceipt`: it threw, it gave no receipt, or a receipt. */
  datatype ReceiptReply = ReceiptThrew | NoReceipt | Receipt(status: bool, gasUsed: nat)

  /** What the ABI decoder makes of the transaction input. */
  datatype Decoded = Decoded(name: string, inputs: seq<string>)

  datatype Detail = Detail(amount: string, fee: string, kind: string, tokenId: string,
                           message: string, contract: string, fromAddress: string)

  datatype TxInfo = TxInfo(totalAmount: string, blockHash: string, blockNumber: Option<nat>,
                           txid: string, fee: string, status: string, confirmations: int,
                           details: seq<Detail>)

  /** The configured swap contract and token addresses of one chain. */
  datatype Contracts = Contracts(swapContract: string, token: string)

  function LowerChar(c: char): char {
    if 'A' <= c <= 'Z' then (c as int + 32) as char else c
  }

  /** `toLowerCase` on the ASCII letters of an address: every character is
      lowered in place, and no upper-case ASCII letter is left. */
  function Lower(s: string): (r: string)
    ensures |r| == |s|
    ensures forall i | 0 <= i < |s| :: r[i] == LowerChar(s[i])
    ensures forall i | 0 <= i < |r| :: !('A' <= r[i] <= 'Z')
  {
    seq(|s|, i requires 0 <= i < |s| => LowerChar(s[i]))
  }

  predicate AsciiLetter(c: char) {
    'A' <= c <= 'Z' || 'a' <= c <= 'z'
  }

  /** Two strings that differ at most in the case of ASCII letters. */
  predicate SameUpToCase(a: string, b: string) {
    && |a| == |b|
    && forall i | 0 <= i < |a| ::
         a[i] == b[i] || (AsciiLetter(a[i]) && AsciiLetter(b[i]) && LowerChar(a[i]) == LowerChar(b[i]))
  }

  /** Comparing lowered strings is comparing them up to ASCII letter case, in
      both directions. */
  lemma LowerMatches(a: string, b: string)
    ensures Lower(a) == Lower(b) <==> SameUpToCase(a, b)
  {
    if Lower(a) == Lower(b) {
      forall i | 0 <= i < |a|
        ensures a[i] == b[i] || (AsciiLetter(a[i]) && AsciiLetter(b[i]) && LowerChar(a[i]) == LowerChar(b[i]))
      {
        assert Lower(a)[i] == Lower(b)[i];
      }
    }
    if SameUpToCase(a, b) {
      assert forall i | 0 <= i < |a| :: Lower(a)[i] == Lower(b)[i];
    }
  }

  /** Lowering twice is lowering once. */
  lemma LowerIdempotent(s: string)
    ensures Lower(Lower(s)) == Lower(s)
  {
    assert forall i | 0 <= i < |s| :: Lower(Lower(s))[i] == Lower(s)[i];
  }

  /** JavaScript truthiness of a block number: null and 0 are false. */
  predicate Mined(blockNumber: Option<nat>) {
    blockNumber.Some? && blockNumber.value != 0
  }

  /** The transaction is addressed to the swap contract (compared without
      case) and calls it with data. */
  predicate ToSwapContract(t: EthTx, c: Contracts) {
    t.to.Some? && t.to.value != "" && Lower(t.to.value) == Lower(c.swapContract) && t.input != "0x"
  }

  /** Confirmation depth from the chain height given by `getNetworkInfo`
      (`None` when it failed): the distance to the transaction's block,
      clamped at 0, and 0 when the height or the block is unknown. */
  function Depth(chainHeight: Option<int>, blockNumber: Option<nat>): (c: nat)
    ensures c > 0 ==> chainHeight.Some? && Mined(blockNumber) && c == chainHeight.value - blockNumber.value
    ensures (&& chainHeight.Some? && chainHeight.value > 0 && Mined(blockNumber)
             && chainHeight.value >= blockNumber.value)
            ==> c == chainHeight.value - blockNumber.value
  {
    if chainHeight.Some? && chainHeight.value > 0 && Mined(blockNumber) then
      var d := chainHeight.value - blockNumber.value;
      if d < 0 then 0 else d
    else 0
  }

  /** `Big(wei).div(1e18).toFixed(8)` with round-down. */
  function WeiToFixed8(wei: nat): string {
    var p := Pow10(WeiDecimals - 8);
    var kept: nat := wei / p;
    ToFixed(kept, 8)
  }

  /** `getTransaction(hash, withreceipt)`: `tx` is the web3 answer, `None` when
      it has none; `chainHeight` the height `getNetworkInfo` resolved with;
      `block` how `getBlock` settled; `fromWei` the web3 utility.
      The summary is built first and then patched field by field, as in the
      adapter. A rejection issued early does not stop the code: the promise
      keeps the first settlement. */
  method GetTransaction(tx: Option<EthTx>, c: Contracts, chainHeight: Option<int>, block: BlockReply,
                        withReceipt: bool, receipt: ReceiptReply, decoded: Decoded,
                        fromWei: string -> string) returns (r: Result<TxInfo>)
    ensures tx.None? || tx.value.hash == "" || !ToSwapContract(tx.value, c) ==> r == Fail(Message(NotFound))
    ensures r.Ok? <==>
      && tx.Some? && tx.value.hash != "" && ToSwapContract(tx.value, c) && block.BlockFound?
      && withReceipt && receipt.Receipt? && decoded.name == "swapSXP" && |decoded.inputs| >= 2
    ensures tx.Some? && tx.value.hash != "" && ToSwapContract(tx.value, c) && block.BlockFound?
            && !(withReceipt && receipt.ReceiptThrew?) && decoded.name != "swapSXP"
            ==> r == Fail(Message(NotFound))
    ensures tx.Some? && tx.value.hash != "" && ToSwapContract(tx.value, c) && !block.BlockFound? ==>
            r == Fail(if block.NoBlock? then Message(BlockNotFound) else Thrown)
    ensures r.Ok? ==>
      var t, info := tx.value, r.value;
      && info.txid == t.hash
      && info.blockNumber == t.blockNumber
      && (info.status == "confirmed" <==> Mined(t.blockNumber))
      && info.confirmations == (if receipt.status then Depth(chainHeight, t.blockNumber) else 0)
      && |info.details| == 1
      && info.details[0].tokenId == c.token
      && info.details[0].contract == c.swapContract
      && info.details[0].message == decoded.inputs[1]
      && info.details[0].fromAddress == t.from
      && info.details[0].amount == info.totalAmount == fromWei(decoded.inputs[0])
  {
    if tx.None? || tx.value.hash == "" {
      return Fail(Message(NotFound));
    }
    var t := tx.value;
    if !ToSwapContract(t, c) {
      return Fail(Message(NotFound));
    }
    var amount := WeiToFixed8(t.value);
    var fee := WeiToFixed8(t.gas * t.gasPrice);
    var status := "pending";
    if Mined(t.blockNumber) {
      status := "confirmed";
    }
    var confirmations: int := 0;
    if chainHeight.Some? {
      var height := chainHeight.value;
      if height > 0 && Mined(t.blockNumber) {
        confirmations := height - t.blockNumber.value;
        if confirmations < 0 {
          confirmations := 0;
        }
      }
    }
    if block.BlockThrew? {
      return Fail(Thrown);
    } else if block.NoBlock? {
      return Fail(Message(BlockNotFound));
    }
    var info := TxInfo(amount, t.blockHash, t.blockNumber, t.hash, fee, status, confirmations,
                       [Detail(amount, fee, "swapSXP", "", "", "", "")]);
    // a rejection already issued, and the receipt's gas once there is one
    var rejected: Option<Reason> := None;
    var gasUsed: Option<nat> := None;
    if withReceipt {
      match receipt
      case ReceiptThrew =>
        rejected := Some(Thrown);
      case NoReceipt =>
        info := info.(confirmations := 0);
      case Receipt(ok, used) =>
        if !ok {
          info := info.(confirmations := 0);
        }
        gasUsed := Some(used);
    } else {
      info := info.(confirmations := 0);
    }
    if decoded.name == "swapSXP" {
      if |decoded.inputs| < 2 || gasUsed.None? {
        // reading an input or `gasUsed` of a missing receipt throws
        return Fail(rejected.GetOr(Thrown));
      }
      var tokens := fromWei(decoded.inputs[0]);
      var actualFee := WeiToFixed8(gasUsed.value * t.gasPrice);
      var d := info.details[0];
      d := d.(amount := tokens, fee := actualFee, tokenId := c.token, contract := c.swapContract);
      d := d.(message := decoded.inputs[1], fromAddress := t.from);
      info := info.(totalAmount := tokens, fee := actualFee, details := [d]);
      r := Ok(info);
    } else {
      r := Fail(rejected.GetOr(Message(NotFound)));
    }
  }

  // ----------------------------------------------------- getRecentTransactions

  /** A `Swap` event of the swap contract. */
  datatype SwapEvent = SwapEvent(blockNumber: int, transactionHash: string, from: string, to: string, amount: nat)

  datatype Entry = Entry(id: string, fromAddress: string, toAddress: string, confirmations: int, amount: string)

  datatype Window = Window(fromBlock: int, toBlock: int)

  /** The block range scanned for events: it ends `HeadMargin` blocks below the
      head and spans `ScanSpan` blocks, whatever `scanBlocks` says. */
  function ScanWindow(head: int, scanBlocks: int): (w: Window)
    ensures w.toBlock == head - HeadMargin
    ensures w.toBlock - w.fromBlock == ScanSpan
  {
    var toBlock := head - HeadMargin;
    Window(toBlock - ScanSpan, toBlock)
  }

  predicate Ascending(es: seq<SwapEvent>) {
    forall i, j | 0 <= i < j < |es| :: es[i].blockNumber <= es[j].blockNumber
  }

  /** Inserts `e` after every event of a block not later than its own. */
  function InsertByBlock(e: SwapEvent, es: seq<SwapEvent>): (r: seq<SwapEvent>)
    requires Ascending(es)
    ensures Ascending(r)
    ensures multiset(r) == multiset(es) + multiset{e}
    ensures r[0] == (if es == [] || e.blockNumber < es[0].blockNumber then e else es[0])
  {
    if es == [] then [e]
    else if e.blockNumber < es[0].blockNumber then AscendingCons(e, es); [e] + es
    else
      var rest := InsertByBlock(e, es[1..]);
      assert es == [es[0]] + es[1..];
      AscendingCons(es[0], rest);
      [es[0]] + rest
  }

  /** An event no later than the first of an ascending sequence extends it. */
  lemma AscendingCons(x: SwapEvent, es: seq<SwapEvent>)
    requires Ascending(es) && (es != [] ==> x.blockNumber <= es[0].blockNumber)
    ensures Ascending([x] + es)
  {
    var r := [x] + es;
    forall i, j | 0 <= i < j < |r| ensures r[i].blockNumber <= r[j].blockNumber {
      if i == 0 {
        assert r[j] == es[j - 1];
        if j > 1 {
          assert es[0].blockNumber <= es[j - 1].blockNumber;
        }
      } else {
        assert r[i] == es[i - 1] && r[j] == es[j - 1];
      }
    }
  }

  /** The events sorted ascending by block number. */
  function SortByBlock(es: seq<SwapEvent>): (r: seq<SwapEvent>)
    ensures Ascending(r)
    ensures multiset(r) == multiset(es)
  {
    if es == [] then []
    else
      assert es == es[..|es| - 1] + [es[|es| - 1]];
      InsertByBlock(es[|es| - 1], SortByBlock(es[..|es| - 1]))
  }

  function EntryOf(e: SwapEvent, toBlock: int): Entry {
    Entry(e.transactionHash, e.from, e.to, toBlock - e.blockNumber, ToFixed(e.amount, WeiDecimals))
  }

  /** `getRecentTransactions`: `head` is `getBlockNumber`'s answer and `events`
      what `getPastEvents` gave for `ScanWindow(head)`; either failing rejects. */
  function RecentTransactions(head: Result<int>, events: Result<seq<SwapEvent>>, scanBlocks: int): (r: Result<seq<Entry>>)
    ensures r.Ok? <==> head.Ok? && events.Ok?
    ensures head.Fail? ==> r == Fail(head.reason)
    ensures head.Ok? && events.Fail? ==> r == Fail(events.reason)
  {
    if head.Fail? then Fail(head.reason)
    else if events.Fail? then Fail(events.reason)
    else
      var w := ScanWindow(head.value, scanBlocks);
      var sorted := SortByBlock(events.value);
      Ok(EntriesOf(sorted, w.toBlock))
  }

  /** The entries of a sequence of events, in the same order. */
  function EntriesOf(es: seq<SwapEvent>, toBlock: int): (r: seq<Entry>)
    ensures |r| == |es| && forall i | 0 <= i < |es| :: r[i] == EntryOf(es[i], toBlock)
  {
    seq(|es|, i requires 0 <= i < |es| => EntryOf(es[i], toBlock))
  }

  /** One entry per event, in ascending block order, so with non-increasing
      confirmations. */
  lemma RecentTransactionsOrder(head: int, events: seq<SwapEvent>, scanBlocks: int)
    ensures var r := RecentTransactions(Ok(head), Ok(events), scanBlocks);
      && r.Ok? && |r.value| == |events|
      && (forall i, j | 0 <= i < j < |r.value| :: r.value[i].confirmations >= r.value[j].confirmations)
  {
    var sorted := SortByBlock(events);
    assert |sorted| == |multiset(sorted)| == |multiset(events)| == |events|;
  }

  /** `x` is the entry of event `e`, with `toBlock - blockNumber`
      confirmations; those lie in 0..ScanSpan when the event lies in the
      window. */
  predicate FromEvent(x: Entry, e: SwapEvent, w: Window) {
    && x == EntryOf(e, w.toBlock)
    && (w.fromBlock <= e.blockNumber <= w.toBlock ==> 0 <= x.confirmations <= ScanSpan)
  }

  /** Each entry is the entry of an event of the answer. */
  lemma RecentTransactionsFromEvents(head: int, events: seq<SwapEvent>, scanBlocks: int)
    ensures var r := RecentTransactions(Ok(head), Ok(events), scanBlocks);
      && r.Ok?
      && (forall i | 0 <= i < |r.value| :: exists e | e in events :: FromEvent(r.value[i], e, ScanWindow(head, scanBlocks)))
  {
    var w := ScanWindow(head, scanBlocks);
    var sorted := SortByBlock(events);
    var entries := EntriesOf(sorted, w.toBlock);
    assert RecentTransactions(Ok(head), Ok(events), scanBlocks) == Ok(entries);
    forall i | 0 <= i < |entries|
      ensures exists e | e in events :: FromEvent(entries[i], e, w)
    {
      var e := sorted[i];
      SortedMember(events, i);
      assert entries[i] == EntryOf(e, w.toBlock);
      assert FromEvent(entries[i], e, w);
    }
  }

  /** No event of the answer is lost: each one has its entry in the list. */
  lemma RecentTransactionsCoverEvents(head: int, events: seq<SwapEvent>, scanBlocks: int)
    ensures var r, w := RecentTransactions(Ok(head), Ok(events), scanBlocks), ScanWindow(head, scanBlocks);
      && r.Ok?
      && forall e | e in events :: exists i | 0 <= i < |r.value| :: r.value[i] == EntryOf(e, w.toBlock)
  {
    var w := ScanWindow(head, scanBlocks);
    var sorted := SortByBlock(events);
    var entries := EntriesOf(sorted, w.toBlock);
    assert RecentTransactions(Ok(head), Ok(events), scanBlocks) == Ok(entries);
    forall e | e in events
      ensures exists i | 0 <= i < |entries| :: entries[i] == EntryOf(e, w.toBlock)
    {
      assert e in multiset(sorted);
      var j :| 0 <= j < |sorted| && sorted[j] == e;
      assert entries[j] == EntryOf(e, w.toBlock);
    }
  }

  /** Sorting only reorders: each sorted event is one of the input. */
  lemma SortedMember(events: seq<SwapEvent>, i: nat)
    requires i < |SortByBlock(events)|
    ensures SortByBlock(events)[i] in events
  {
    var sorted := SortByBlock(events);
    assert sorted[i] in multiset(sorted);
  }
}

=== FILE: ingestion.dfy ===
/** Ingestion (`_checkNewTransactions`, src/swapper.ts): each deposit listed by
    a chain's adapter that the store does not know yet is fetched, checked
    against the configured contract and token, and becomes a new record. */
module Ingestion {
  import opened Wrappers
  import opened Records
  import Erc20

  /** One chain's name ("eth" or "bsc") and the addresses its adapter is
      configured with. */
  datatype ChainConfig = ChainConfig(network: string, contracts: Erc20.Contracts)

  /** What `getTransaction` gives: a rejection, or a summary with a first
      detail (every summary the adapter resolves with has exactly one, see
      `Erc20.GetTransaction`). */
  type Fetched = f: Result<Erc20.TxInfo> | f.Ok? ==> |f.value.details| >= 1 witness Fail(Thrown)

  /** The answers one scan receives: `getTransaction` by transaction id,
      `validateAddress` by address (`None` when it throws), and the clock. */
  datatype ScanAnswers = ScanAnswers(fetch: string -> Fetched, validate: string -> Option<bool>, now: nat)

  const InvalidAddress := "Invalid SXP Address"

  /** The fetch succeeded and its first detail names the configured swap
      contract and token. */
  predicate Accepted(f: Fetched, c: Erc20.Contracts) {
    f.Ok? && f.value.details[0].contract == c.swapContract && f.value.details[0].tokenId == c.token
  }

  /** The record created for an accepted deposit; the destination is the
      detail's message, and an address the validator refuses or throws on
      marks the record in error. */
  function NewRecord(network: string, info: Erc20.TxInfo, valid: Option<bool>, now: nat): (r: SwapRecord)
    requires |info.details| >= 1
    ensures WellFormed(r)
    ensures r.network == network && r.transactionId == info.txid
    ensures r.senderAddress == info.details[0].fromAddress && r.tokenId == info.details[0].tokenId
    ensures r.confirmations == info.confirmations && r.transactionTimestamp.None?
    ensures r.swapAddress == info.details[0].message && r.quantity == info.details[0].amount
    ensures r.isConfirmed <==> info.confirmations > IngestThreshold
    ensures r.confirmedAt == (if r.isConfirmed then now else 0)
    ensures !r.isSwapped && r.swappedAt == 0 && r.swapTransactionId == ""
    ensures r.isError <==> valid != Some(true)
    ensures r.errorReason == (if r.isError then InvalidAddress else "")
  {
    var d := info.details[0];
    var confirmed := info.confirmations > IngestThreshold;
    var invalid := valid != Some(true);
    SwapRecord(
      network := network,
      senderAddress := d.fromAddress,
      tokenId := d.tokenId,
      transactionId := info.txid,
      transactionTimestamp := None,
      quantity := d.amount,
      confirmations := info.confirmations,
      isConfirmed := confirmed,
      isSwapped := false,
      isError := invalid,
      errorReason := if invalid then InvalidAddress else "",
      swapAddress := d.message,
      confirmedAt := if confirmed then now else 0,
      swappedAt := 0,
      swapTransactionId := "")
  }

  /** The deposit is new to the store and its fetched summary is accepted. */
  predicate Inserts(store: Store, e: Erc20.Entry, cfg: ChainConfig, ans: ScanAnswers) {
    !HasTransaction(store, e.id) && Accepted(ans.fetch(e.id), cfg.contracts)
  }

  /** One iteration of the scan loop. */
  function IngestOne(store: Store, e: Erc20.Entry, cfg: ChainConfig, ans: ScanAnswers): (r: Store)
    ensures |r| == |store| + 1 <==> Inserts(store, e, cfg, ans)
    ensures !Inserts(store, e, cfg, ans) ==> r == store
    ensures r[..|store|] == store
  {
    if Inserts(store, e, cfg, ans) then store + [Created(e, cfg, ans)] else store
  }

  /** The store after scanning the deposits of `list` in order. */
  function IngestAll(store: Store, list: seq<Erc20.Entry>, cfg: ChainConfig, ans: ScanAnswers): Store {
    if list == [] then store
    else IngestOne(IngestAll(store, list[..|list| - 1], cfg, ans), list[|list| - 1], cfg, ans)
  }

  /** Ingestion only appends, at most one record per listed deposit: the
      records already stored are untouched. */
  lemma {:induction false} IngestKeepsExisting(store: Store, list: seq<Erc20.Entry>, cfg: ChainConfig, ans: ScanAnswers)
    ensures var r := IngestAll(store, list, cfg, ans);
      |store| <= |r| <= |store| + |list| && r[..|store|] == store
  {
    if list != [] {
      var prefix := list[..|list| - 1];
      IngestKeepsExisting(store, prefix, cfg, ans);
      var mid := IngestAll(store, prefix, cfg, ans);
      assert mid[..|store|] == store;
      var r := IngestOne(mid, list[|list| - 1], cfg, ans);
      assert r[..|mid|] == mid;
      assert r[..|store|] == mid[..|store|];
    }
  }

  /** The record ingestion creates for deposit `e`. */
  function Created(e: Erc20.Entry, cfg: ChainConfig, ans: ScanAnswers): SwapRecord
    requires Accepted(ans.fetch(e.id), cfg.contracts)
  {
    var info := ans.fetch(e.id).value;
    NewRecord(cfg.network, info, ans.validate(info.details[0].message), ans.now)
  }

  /** Every appended record is the new record of a listed deposit that was
      not in the store and whose summary was accepted. */
  lemma {:induction false} IngestNewRecords(store: Store, list: seq<Erc20.Entry>, cfg: ChainConfig, ans: ScanAnswers)
    ensures var r := IngestAll(store, list, cfg, ans);
      forall j | |store| <= j < |r| :: exists k | 0 <= k < |list| ::
        Inserts(store, list[k], cfg, ans) && r[j] == Created(list[k], cfg, ans)
  {
    if list != [] {
      var prefix := list[..|list| - 1];
      var e := list[|list| - 1];
      IngestNewRecords(store, prefix, cfg, ans);
      IngestKeepsExisting(store, prefix, cfg, ans);
      var mid := IngestAll(store, prefix, cfg, ans);
      var r := IngestOne(mid, e, cfg, ans);
      forall j | |store| <= j < |r|
        ensures exists k | 0 <= k < |list| :: Inserts(store, list[k], cfg, ans) && r[j] == Created(list[k], cfg, ans)
      {
        if j < |mid| {
          assert exists k | 0 <= k < |prefix| :: Inserts(store, prefix[k], cfg, ans) && mid[j] == Created(prefix[k], cfg, ans);
          var k :| 0 <= k < |prefix| && Inserts(store, prefix[k], cfg, ans) && mid[j] == Created(prefix[k], cfg, ans);
          assert list[k] == prefix[k];
          assert r[j] == mid[j];
        } else {
          assert Inserts(mid, e, cfg, ans);
          assert Inserts(store, list[|list| - 1], cfg, ans);
        }
      }
    }
  }

  /** `fetch` answers for the transaction asked for: an accepted summary
      carries the id it was fetched by. */
  ghost predicate Consistent(ans: ScanAnswers) {
    forall id :: ans.fetch(id).Ok? ==> ans.fetch(id).value.txid == id
  }

  /** With consistent answers, ingestion never stores a transaction id twice. */
  lemma {:induction false} IngestUnique(store: Store, list: seq<Erc20.Entry>, cfg: ChainConfig, ans: ScanAnswers)
    requires UniqueIds(store) && Consistent(ans)
    ensures UniqueIds(IngestAll(store, list, cfg, ans))
  {
    if list != [] {
      var prefix := list[..|list| - 1];
      var e := list[|list| - 1];
      IngestUnique(store, prefix, cfg, ans);
      var mid := IngestAll(store, prefix, cfg, ans);
      var r := IngestOne(mid, e, cfg, ans);
      if Inserts(mid, e, cfg, ans) {
        assert r[|mid|].transactionId == e.id;
        forall i | 0 <= i < |mid| ensures r[i].transactionId != e.id {
          assert r[i] == mid[i];
        }
      }
    }
  }

  /** Ingestion keeps every record well formed. */
  lemma {:induction false} IngestWellFormed(store: Store, list: seq<Erc20.Entry>, cfg: ChainConfig, ans: ScanAnswers)
    requires AllWellFormed(store)
    ensures AllWellFormed(IngestAll(store, list, cfg, ans))
  {
    if list != [] {
      var prefix := list[..|list| - 1];
      IngestWellFormed(store, prefix, cfg, ans);
      var mid := IngestAll(store, prefix, cfg, ans);
      var r := IngestOne(mid, list[|list| - 1], cfg, ans);
      forall j | 0 <= j < |r| ensures WellFormed(r[j]) {
        if j < |mid| {
          assert r[j] == mid[j];
        }
      }
    }
  }
}

=== FILE: records.dfy ===
/** The swap records the engine keeps (src/model/swap.ts) and the predicates
    the three stages select them by. The store is the sequence of records in
    insertion order: a record's id is its position, and the database's natural
    order is the order of the sequence. */
module Records {
  import opened Wrappers

  /** One deposit on ETH or BSC and the state of its payout on Solar.
      `transactionTimestamp` is part of the schema but never written. */
  datatype SwapRecord = SwapRecord(
    network: string,
    senderAddress: string,
    tokenId: string,
    transactionId: string,
    transactionTimestamp: Option<int>,
    quantity: string,
    confirmations: int,
    isConfirmed: bool,
    isSwapped: bool,
    isError: bool,
    errorReason: string,
    swapAddress: string,
    confirmedAt: nat,
    swappedAt: int,
    swapTransactionId: string)

  type Store = seq<SwapRecord>

  /** Confirmations a deposit needs when first seen, and when tracked. */
  const IngestThreshold := 35
  const TrackThreshold := 40

  /** Records the tracker looks at (`isConfirmed: false, isError: false`). */
  predicate Pending(r: SwapRecord) {
    !r.isConfirmed && !r.isError
  }

  /** Records settlement looks at (`isConfirmed: true, isError: false, isSwapped: false`). */
  predicate Settleable(r: SwapRecord) {
    r.isConfirmed && !r.isError && !r.isSwapped
  }

  /** Some record of the store has this transaction id (`findOne`). */
  predicate HasTransaction(store: Store, id: string) {
    exists j | 0 <= j < |store| :: store[j].transactionId == id
  }

  /** No two records share a transaction id. */
  predicate UniqueIds(store: Store) {
    forall i, j | 0 <= i < j < |store| :: store[i].transactionId != store[j].transactionId
  }

  /** What every record written by the engine satisfies: a swapped record is
      confirmed and not in error, timestamps are only set together with their
      flags, and a confirmed record had more than `IngestThreshold`
      confirmations. */
  predicate WellFormed(r: SwapRecord) {
    && (r.isSwapped ==> r.isConfirmed && !r.isError)
    && (r.swappedAt != 0 ==> r.isSwapped)
    && (r.confirmedAt != 0 ==> r.isConfirmed)
    && (r.isConfirmed ==> r.confirmations > IngestThreshold)
  }

  predicate AllWellFormed(store: Store) {
    forall j | 0 <= j < |store| :: WellFormed(store[j])
  }

  /** The ids below `n` of the records `keep` holds for, in ascending order
      (a `find` on the store). */
  function Select(store: Store, keep: SwapRecord -> bool, n: nat): (ids: seq<nat>)
    requires n <= |store|
    ensures forall k | 0 <= k < |ids| :: ids[k] < n && keep(store[ids[k]])
    ensures forall k, l | 0 <= k < l < |ids| :: ids[k] < ids[l]
    ensures forall j | 0 <= j < n && keep(store[j]) :: j in ids
  {
    if n == 0 then []
    else
      var prev := Select(store, keep, n - 1);
      if keep(store[n - 1]) then prev + [n - 1] else prev
  }

  /** Settlement's batch (`find(...).limit(50)`). */
  const BatchLimit := 50

  /** The first `BatchLimit` settleable records in store order. */
  function Batch(store: Store): (ids: seq<nat>)
    ensures |ids| <= BatchLimit
    ensures forall k | 0 <= k < |ids| :: ids[k] < |store| && Settleable(store[ids[k]])
    ensures forall k, l | 0 <= k < l < |ids| :: ids[k] < ids[l]
    ensures |ids| < BatchLimit ==> forall j | 0 <= j < |store| && Settleable(store[j]) :: j in ids
    ensures forall k, j | 0 <= k < |ids| && 0 <= j < ids[k] && j < |store| && Settleable(store[j]) :: j in ids
  {
    var all := Select(store, Settleable, |store|);
    var m := if |all| <= BatchLimit then |all| else BatchLimit;
    PrefixClosed(store, all, m);
    assert all[..|all|] == all;
    all[..m]
  }

  /** A prefix of all settleable ids in ascending order leaves out no
      settleable record that comes before one of its members. */
  lemma PrefixClosed(store: Store, all: seq<nat>, m: nat)
    requires m <= |all|
    requires forall k, l | 0 <= k < l < |all| :: all[k] < all[l]
    requires forall j | 0 <= j < |store| && Settleable(store[j]) :: j in all
    ensures forall k, j | 0 <= k < m && 0 <= j < all[k] && j < |store| && Settleable(store[j]) :: j in all[..m]
  {
    forall k, j | 0 <= k < m && 0 <= j < all[k] && j < |store| && Settleable(store[j])
      ensures j in all[..m]
    {
      var i :| 0 <= i < |all| && all[i] == j;
      assert i < k;
      assert all[..m][i] == j;
    }
  }
}

=== FILE: settlement.dfy ===
/** Settlement (`swapConfirmedTransactions`, src/swapper.ts): for each record of
    the batch, look for an earlier payout tagged with the deposit, otherwise
    check the payout account's balance, lock the record, take the next nonce
    and send; a failed send marks the record and abandons the batch. */
module Settlement {
  import opened Wrappers
  import opened Decimal
  import opened Records
  import Solar

  /** `parseInt(String(confirmedAt).slice(0, -3))`: the confirmation time in
      seconds, or `None` (NaN) when fewer than four digits are left. */
  function CheckTimestamp(confirmedAt: nat): (t: Option<nat>)
    ensures confirmedAt >= 1000 ==> t == Some(confirmedAt / 1000)
    ensures confirmedAt < 1000 ==> t == None
  {
    DigitsDropThree(confirmedAt);
    var s := DigitsOf(confirmedAt);
    var kept := if |s| > 3 then s[..|s| - 3] else [];
    if kept == [] then None
    else
      assert AllDigits(kept) by {
        forall i | 0 <= i < |kept| ensures IsDigit(kept[i]) {
          assert kept[i] == s[i];
        }
      }
      Some(NatOf(kept))
  }

  /** The vendor field a payout for this record carries (`network:transactionId`). */
  function Tag(r: SwapRecord): string {
    r.network + ":" + r.transactionId
  }

  /** Position of the last listed payout carrying `tag`, -1 when none does. */
  function LastMatchIndex(listing: seq<Solar.Listed>, tag: string): (i: int)
    ensures -1 <= i < |listing|
    ensures i >= 0 ==> listing[i].vendorField == tag
    ensures forall j | i < j < |listing| :: listing[j].vendorField != tag
  {
    if listing == [] then -1
    else if listing[|listing| - 1].vendorField == tag then |listing| - 1
    else LastMatchIndex(listing[..|listing| - 1], tag)
  }

  /** The last listed payout carrying `tag`: the inner loop marks the record
      for every match, so the last one stays. */
  function LastMatch(listing: seq<Solar.Listed>, tag: string): Option<Solar.Listed> {
    var i := LastMatchIndex(listing, tag);
    if i < 0 then None else Some(listing[i])
  }

  /** The inner loop over the listed payouts. */
  method FindEarlierPayout(listing: seq<Solar.Listed>, tag: string) returns (found: Option<Solar.Listed>)
    ensures found == LastMatch(listing, tag)
  {
    found := None;
    var c := 0;
    while c < |listing|
      invariant 0 <= c <= |listing|
      invariant found == LastMatch(listing[..c], tag)
    {
      assert listing[..c + 1][..c] == listing[..c];
      if listing[c].vendorField == tag {
        found := Some(listing[c]);
      }
      c := c + 1;
    }
    assert listing[..c] == listing;
  }

  /** `Big(swapperBalance).gt(quantity)`: the balance is the text `getBalance`
      resolved with, or the number 0 when it was rejected; a quantity Big.js
      refuses makes the comparison throw, which counts as not enough. */
  predicate BalanceOk(balance: Result<string>, quantity: string) {
    var b := if balance.Ok? then Parse(balance.value) else Some(Dec(0, 0));
    var q := Parse(quantity);
    b.Some? && q.Some? && Greater(b.value, q.value)
  }

  /** The gate passes only on a balance that was fetched and whose value
      strictly exceeds the quantity's. */
  lemma BalanceOkMeans(balance: Result<string>, quantity: string)
    ensures BalanceOk(balance, quantity) <==>
      && balance.Ok? && Parse(balance.value).Some? && Parse(quantity).Some?
      && Value(Parse(balance.value).value) > Value(Parse(quantity).value)
  {
    var q := Parse(quantity);
    if q.Some? {
      GreaterIsValueOrder(Dec(0, 0), q.value);
      if balance.Ok? && Parse(balance.value).Some? {
        GreaterIsValueOrder(Parse(balance.value).value, q.value);
      }
    }
  }

  /** What settlement asks `sendTransaction` for: recipient, payment tag,
      quantity and the nonce override. */
  datatype SendRequest = SendRequest(toAddress: string, paymentId: string, amount: string, nonce: nat)

  /** The answers settlement receives, by position in the batch: the list
      `getTransactionsBySenderRecipient` resolves with for (recipient, since),
      what `getBalance` gives, how the promise of `sendTransaction` settles for
      a request (`Solar.SendTransaction` models it), and the clock after a
      send. */
  datatype Ledger = Ledger(
    payouts: (nat, string, Option<nat>) -> seq<Solar.Listed>,
    balance: nat -> Result<string>,
    send: (nat, SendRequest) -> Solar.Settlement,
    now: nat -> nat)

  /** The engine's state: the store, `currentNonce` (`None` when it is not a
      number) and `lastSend`. */
  datatype Engine = Engine(store: Store, nonce: Option<nat>, lastSend: int)

  /** One call of `sendTransaction`: the batch position and record it was
      for, the request, and how it settled. */
  datatype Attempt = Attempt(pos: nat, id: nat, request: SendRequest, outcome: Solar.Settlement)

  /** How the batch ended: all of it processed, abandoned after a failure on a
      record, or waiting forever on a send that never settles. */
  datatype Stop = Done | FailedAt(id: nat) | HungAt(id: nat)

  datatype Settled = Settled(engine: Engine, attempts: seq<Attempt>, stop: Stop)

  const SendError := "Error While Sending"

  /** An earlier payout found for the record at batch position `k`. */
  function Earlier(r: SwapRecord, k: nat, ledger: Ledger): Option<Solar.Listed> {
    LastMatch(ledger.payouts(k, r.swapAddress, CheckTimestamp(r.confirmedAt)), Tag(r))
  }

  predicate Funded(r: SwapRecord, k: nat, ledger: Ledger) {
    BalanceOk(ledger.balance(k), r.quantity)
  }

  /** The checks made before a send: they read only the record as the batch
      fetched it and the answers for its position, so they are computed for
      the whole batch up front. */
  datatype Gate = Gate(earlier: Option<Solar.Listed>, funded: bool)

  function GateOf(r: SwapRecord, k: nat, ledger: Ledger): Gate {
    Gate(Earlier(r, k, ledger), Funded(r, k, ledger))
  }

  /** Ids that are valid, strictly ascending positions of the store. */
  predicate BatchOf(batch: seq<nat>, store: Store) {
    && (forall p | 0 <= p < |batch| :: batch[p] < |store|)
    && (forall p, q | 0 <= p < q < |batch| :: batch[p] < batch[q])
  }

  function Gates(store: Store, batch: seq<nat>, ledger: Ledger): (gates: seq<Gate>)
    requires BatchOf(batch, store)
    ensures |gates| == |batch|
    ensures forall p | 0 <= p < |batch| :: gates[p] == GateOf(store[batch[p]], p, ledger)
  {
    seq(|batch|, p requires 0 <= p < |batch| => GateOf(store[batch[p]], p, ledger))
  }

  /** The request for a record, with the nonce after `n`. */
  function RequestFor(r: SwapRecord, n: nat): SendRequest {
    SendRequest(r.swapAddress, Tag(r), r.quantity, n + 1)
  }

  /** What happens to a record whose send failed. */
  function SendFailed(r: SwapRecord): SwapRecord {
    r.(isSwapped := false, isError := true, errorReason := SendError)
  }

  /** The record differs from `before` in its payout fields at most. */
  predicate SameDeposit(r: SwapRecord, before: SwapRecord) {
    r == before.(isSwapped := r.isSwapped, isError := r.isError, errorReason := r.errorReason,
                 swappedAt := r.swappedAt, swapTransactionId := r.swapTransactionId)
  }

  /** The record marked with an earlier payout found on the ledger. */
  function Paid(r: SwapRecord, p: Solar.Listed): SwapRecord {
    r.(isSwapped := true, swappedAt := p.timestamp * 1000, swapTransactionId := p.id)
  }

  /** The record after a send that resolved with `txid`, at time `at`. */
  function Sent(r: SwapRecord, at: nat, txid: string): SwapRecord {
    r.(isSwapped := true, swappedAt := at, swapTransactionId := txid)
  }

  /** One iteration of the batch loop, for record `id` at position `k`, given
      its gate. */
  function SettleOne(e: Engine, k: nat, id: nat, g: Gate, ledger: Ledger): (s: Settled)
    requires id < |e.store|
    ensures |s.engine.store| == |e.store|
    ensures forall j | 0 <= j < |e.store| && j != id :: s.engine.store[j] == e.store[j]
    ensures SameDeposit(s.engine.store[id], e.store[id])
    ensures s.stop.Done? || s.stop == FailedAt(id) || s.stop == HungAt(id)
    ensures g.earlier.Some? ==>
      && s.attempts == [] && s.stop.Done? && s.engine.nonce == e.nonce
      && s.engine.store[id] == Paid(e.store[id], g.earlier.value)
    ensures g.earlier.None? && !g.funded ==> s == Settled(e, [], Done)
    ensures e.nonce.None? ==> s.attempts == [] && s.engine.nonce == None
    ensures |s.attempts| <= 1
    ensures s.attempts != [] ==>
      && e.nonce.Some? && g.earlier.None? && g.funded
      && s.attempts[0] == Attempt(k, id, RequestFor(e.store[id], e.nonce.value),
                                  ledger.send(k, RequestFor(e.store[id], e.nonce.value)))
      && s.engine.nonce == Some(e.nonce.value + 1)
    ensures s.attempts == [] ==> s.engine.nonce == e.nonce
    ensures s.stop.FailedAt? ==> s.engine.store[id] == SendFailed(e.store[id])
    ensures s.stop.HungAt? ==>
      && s.attempts != [] && s.attempts[0].outcome.Unsettled?
      && s.engine.store[id] == e.store[id].(isSwapped := true)
    ensures s.stop.FailedAt? && s.attempts != [] ==> s.attempts[0].outcome.Rejected?
    ensures s.stop.Done? && s.attempts != [] ==>
      && s.attempts[0].outcome.Resolved?
      && s.engine.store[id] == Sent(e.store[id], ledger.now(k), s.attempts[0].outcome.txid)
      && s.engine.lastSend == ledger.now(k)
    ensures s.engine.lastSend != e.lastSend ==> s.attempts != [] && s.stop.Done?
  {
    var r := e.store[id];
    if g.earlier.Some? then
      Settled(e.(store := e.store[id := Paid(r, g.earlier.value)]), [], Done)
    else if !g.funded then Settled(e, [], Done)
    else if e.nonce.None? then
      // the record is locked, then `Big(currentNonce)` throws
      Settled(e.(store := e.store[id := SendFailed(r)]), [], FailedAt(id))
    else
      var request := RequestFor(r, e.nonce.value);
      var outcome := ledger.send(k, request);
      var attempt := Attempt(k, id, request, outcome);
      match outcome
      case Resolved(txid) =>
        var now := ledger.now(k);
        Settled(Engine(e.store[id := Sent(r, now, txid)], Some(request.nonce), now),
                [attempt], Done)
      case Rejected(_) =>
        Settled(Engine(e.store[id := SendFailed(r)], Some(request.nonce), e.lastSend), [attempt], FailedAt(id))
      case Unsettled =>
        Settled(Engine(e.store[id := r.(isSwapped := true)], Some(request.nonce), e.lastSend), [attempt], HungAt(id))
  }

  /** The batch loop from position `k` on. */
  function SettleFrom(e: Engine, batch: seq<nat>, gates: seq<Gate>, k: nat, ledger: Ledger): (s: Settled)
    requires BatchOf(batch, e.store) && |gates| == |batch|
    ensures |s.engine.store| == |e.store|
    decreases |batch| - k
  {
    if k >= |batch| then Settled(e, [], Done)
    else
      var s := SettleOne(e, k, batch[k], gates[k], ledger);
      if !s.stop.Done? then s
      else
        var rest := SettleFrom(s.engine, batch, gates, k + 1, ledger);
        Settled(rest.engine, s.attempts + rest.attempts, rest.stop)
  }

  /** `swapConfirmedTransactions` on the engine's state. */
  function Settle(e: Engine, ledger: Ledger): Settled {
    var batch := Batch(e.store);
    SettleFrom(e, batch, Gates(e.store, batch, ledger), 0, ledger)
  }

  /** `after` differs from `before` only in the payout fields of the records
      whose ids are listed. */
  predicate Framed(before: Store, after: Store, ids: seq<nat>) {
    && |after| == |before|
    && (forall j | 0 <= j < |before| :: SameDeposit(after[j], before[j]))
    && (forall j | 0 <= j < |before| && j !in ids :: after[j] == before[j])
  }

  /** A batch that stopped early stopped at one of the listed ids, and every
      record after that one is untouched. */
  predicate StoppedWithin(stop: Stop, before: Store, after: Store, ids: seq<nat>) {
    !stop.Done? ==>
      && stop.id in ids
      && forall j | stop.id < j < |before| && j < |after| :: after[j] == before[j]
  }

  lemma FrameStep(store0: Store, store1: Store, store2: Store, batch: seq<nat>, k: nat, stop: Stop)
    requires BatchOf(batch, store0) && k < |batch| && |store1| == |store0|
    requires forall j | 0 <= j < |store0| && j != batch[k] :: store1[j] == store0[j]
    requires SameDeposit(store1[batch[k]], store0[batch[k]])
    requires Framed(store1, store2, batch[k + 1..]) && StoppedWithin(stop, store1, store2, batch[k + 1..])
    ensures Framed(store0, store2, batch[k..]) && StoppedWithin(stop, store0, store2, batch[k..])
  {
    assert batch[k..] == [batch[k]] + batch[k + 1..];
    NotLater(batch, store0, k);
    if !stop.Done? {
      var p :| 0 <= p < |batch[k + 1..]| && batch[k + 1..][p] == stop.id;
      assert batch[k] < batch[k + 1 + p];
    }
  }

  /** Only the records of the batch from position `k` on can change, only in
      their payout fields, and after a failed or hanging send every later
      record is untouched. */
  lemma {:induction false} SettleFrame(e: Engine, batch: seq<nat>, gates: seq<Gate>, k: nat, ledger: Ledger)
    requires BatchOf(batch, e.store) && |gates| == |batch| && k <= |batch|
    ensures var s := SettleFrom(e, batch, gates, k, ledger);
      Framed(e.store, s.engine.store, batch[k..]) && StoppedWithin(s.stop, e.store, s.engine.store, batch[k..])
    decreases |batch| - k
  {
    if k < |batch| {
      var one := SettleOne(e, k, batch[k], gates[k], ledger);
      if one.stop.Done? {
        SettleFrame(one.engine, batch, gates, k + 1, ledger);
        var rest := SettleFrom(one.engine, batch, gates, k + 1, ledger);
        FrameStep(e.store, one.engine.store, rest.engine.store, batch, k, rest.stop);
      } else {
        assert batch[k..][0] == batch[k];
      }
    }
  }

  /** The attempts of `sent` use the nonces after `n`, one each, in order. */
  predicate Consecutive(sent: seq<Attempt>, n: nat) {
    forall i | 0 <= i < |sent| :: sent[i].request.nonce == n + i + 1
  }

  lemma ConsecutiveStep(first: seq<Attempt>, rest: seq<Attempt>, n: nat)
    requires |first| <= 1 && (first != [] ==> first[0].request.nonce == n + 1)
    requires Consecutive(rest, n + |first|)
    ensures Consecutive(first + rest, n)
  {
    var all := first + rest;
    forall i | 0 <= i < |all| ensures all[i].request.nonce == n + i + 1 {
      if i >= |first| {
        assert all[i] == rest[i - |first|];
      }
    }
  }

  /** Each send takes the next nonce: with a numeric nonce `n` the attempts use
      n+1, n+2, ... and the engine ends at n plus the number of attempts;
      without one nothing is sent and the nonce stays unset. */
  lemma {:induction false} SettleNonces(e: Engine, batch: seq<nat>, gates: seq<Gate>, k: nat, ledger: Ledger)
    requires BatchOf(batch, e.store) && |gates| == |batch|
    ensures var s := SettleFrom(e, batch, gates, k, ledger);
      && (e.nonce.None? ==> s.attempts == [] && s.engine.nonce == None)
      && (e.nonce.Some? ==> s.engine.nonce == Some(e.nonce.value + |s.attempts|) && Consecutive(s.attempts, e.nonce.value))
    decreases |batch| - k
  {
    if k < |batch| {
      var one := SettleOne(e, k, batch[k], gates[k], ledger);
      if one.stop.Done? {
        SettleNonces(one.engine, batch, gates, k + 1, ledger);
        var rest := SettleFrom(one.engine, batch, gates, k + 1, ledger);
        if e.nonce.Some? {
          ConsecutiveStep(one.attempts, rest.attempts, e.nonce.value);
        }
      }
    }
  }

  /** Attempt `a` was made for the batch record at a position from `k` on
      whose gate passed, and asks for that record's own address, tag and
      quantity. */
  predicate SentFor(store: Store, batch: seq<nat>, gates: seq<Gate>, k: nat, a: Attempt) {
    && k <= a.pos < |batch| && a.pos < |gates| && a.id == batch[a.pos] && a.id < |store|
    && gates[a.pos].earlier.None? && gates[a.pos].funded
    && a.request.nonce >= 1
    && a.request == RequestFor(store[a.id], a.request.nonce - 1)
  }

  predicate AllSentFor(store: Store, batch: seq<nat>, gates: seq<Gate>, k: nat, sent: seq<Attempt>) {
    forall i | 0 <= i < |sent| :: SentFor(store, batch, gates, k, sent[i])
  }

  lemma SentForStep(store0: Store, store1: Store, batch: seq<nat>, gates: seq<Gate>, k: nat,
                    first: seq<Attempt>, rest: seq<Attempt>)
    requires BatchOf(batch, store0) && |store1| == |store0| && k < |batch|
    requires forall j | 0 <= j < |store0| && j != batch[k] :: store1[j] == store0[j]
    requires first != [] ==> |first| == 1 && SentFor(store0, batch, gates, k, first[0])
    requires AllSentFor(store1, batch, gates, k + 1, rest)
    ensures AllSentFor(store0, batch, gates, k, first + rest)
  {
    var all := first + rest;
    forall i | 0 <= i < |all| ensures SentFor(store0, batch, gates, k, all[i]) {
      if i >= |first| {
        var a := rest[i - |first|];
        assert all[i] == a;
        assert batch[k] < batch[a.pos];
        assert store1[a.id] == store0[a.id];
      }
    }
  }

  /** Every send is for a batch record whose gate passed (no earlier tagged
      payout, balance above its quantity) and asks for the record's own
      address, tag and quantity. */
  lemma {:induction false} SettleAttempts(e: Engine, batch: seq<nat>, gates: seq<Gate>, k: nat, ledger: Ledger)
    requires BatchOf(batch, e.store) && |gates| == |batch|
    ensures AllSentFor(e.store, batch, gates, k, SettleFrom(e, batch, gates, k, ledger).attempts)
    decreases |batch| - k
  {
    if k < |batch| {
      var one := SettleOne(e, k, batch[k], gates[k], ledger);
      if one.stop.Done? {
        SettleAttempts(one.engine, batch, gates, k + 1, ledger);
        var rest := SettleFrom(one.engine, batch, gates, k + 1, ledger);
        SentForStep(e.store, one.engine.store, batch, gates, k, one.attempts, rest.attempts);
      }
    }
  }

  /** The attempts of `sent` are for batch positions from `k` on, each for the
      record at its position, in strictly increasing order. */
  predicate InBatchOrder(sent: seq<Attempt>, batch: seq<nat>, k: nat) {
    && (forall i | 0 <= i < |sent| :: k <= sent[i].pos < |batch| && sent[i].id == batch[sent[i].pos])
    && (forall i, j | 0 <= i < j < |sent| :: sent[i].pos < sent[j].pos)
  }

  lemma InBatchOrderStep(first: seq<Attempt>, rest: seq<Attempt>, batch: seq<nat>, k: nat)
    requires k < |batch| && |first| <= 1 && (first != [] ==> first[0].pos == k && first[0].id == batch[k])
    requires InBatchOrder(rest, batch, k + 1)
    ensures InBatchOrder(first + rest, batch, k)
  {
    var all := first + rest;
    forall i | |first| <= i < |all| ensures all[i] == rest[i - |first|] {
    }
  }

  /** Sends go in batch order, at most one per record, each for the batch
      record at its position. */
  lemma {:induction false} SettleAttemptsOrdered(e: Engine, batch: seq<nat>, gates: seq<Gate>, k: nat, ledger: Ledger)
    requires BatchOf(batch, e.store) && |gates| == |batch|
    ensures InBatchOrder(SettleFrom(e, batch, gates, k, ledger).attempts, batch, k)
    decreases |batch| - k
  {
    if k < |batch| {
      var one := SettleOne(e, k, batch[k], gates[k], ledger);
      if one.stop.Done? {
        SettleAttemptsOrdered(one.engine, batch, gates, k + 1, ledger);
        var rest := SettleFrom(one.engine, batch, gates, k + 1, ledger);
        InBatchOrderStep(one.attempts, rest.attempts, batch, k);
      }
    }
  }

  /** The batch position `p` was handled before the loop ended. */
  predicate Reached(stop: Stop, batch: seq<nat>, p: nat)
    requires p < |batch|
  {
    stop.Done? || batch[p] < stop.id
  }

  /** A record handled with an earlier tagged payout is marked with it, and
      one handled with too small a balance is left as it was. */
  lemma {:induction false} SettleGated(e: Engine, batch: seq<nat>, gates: seq<Gate>, k: nat, ledger: Ledger)
    requires BatchOf(batch, e.store) && |gates| == |batch|
    ensures var s := SettleFrom(e, batch, gates, k, ledger);
      forall p | k <= p < |batch| && Reached(s.stop, batch, p) ::
        && (gates[p].earlier.Some? ==> s.engine.store[batch[p]] == Paid(e.store[batch[p]], gates[p].earlier.value))
        && (gates[p].earlier.None? && !gates[p].funded ==> s.engine.store[batch[p]] == e.store[batch[p]])
    decreases |batch| - k
  {
    if k < |batch| {
      var one := SettleOne(e, k, batch[k], gates[k], ledger);
      if one.stop.Done? {
        SettleGated(one.engine, batch, gates, k + 1, ledger);
        SettleFrame(one.engine, batch, gates, k + 1, ledger);
        var rest := SettleFrom(one.engine, batch, gates, k + 1, ledger);
        assert var r := SettleFrom(one.engine, batch, gates, k + 1, ledger);
          && (forall p | k + 1 <= p < |batch| && Reached(r.stop, batch, p) ::
                && (gates[p].earlier.Some? ==> r.engine.store[batch[p]] == Paid(one.engine.store[batch[p]], gates[p].earlier.value))
                && (gates[p].earlier.None? && !gates[p].funded ==> r.engine.store[batch[p]] == one.engine.store[batch[p]]))
          && Framed(one.engine.store, r.engine.store, batch[k + 1..]);
        forall p | k <= p < |batch| && Reached(rest.stop, batch, p)
          ensures && (gates[p].earlier.Some? ==> rest.engine.store[batch[p]] == Paid(e.store[batch[p]], gates[p].earlier.value))
                  && (gates[p].earlier.None? && !gates[p].funded ==> rest.engine.store[batch[p]] == e.store[batch[p]])
        {
          if p == k {
            NotLater(batch, e.store, k);
          } else {
            assert batch[k] < batch[p];
          }
        }
      } else {
        forall p | k <= p < |batch| ensures !Reached(one.stop, batch, p) {
          if p > k {
            assert batch[k] < batch[p];
          }
        }
      }
    }
  }

  /** A batch id does not come back later in the batch. */
  lemma NotLater(batch: seq<nat>, store: Store, k: nat)
    requires BatchOf(batch, store) && k < |batch|
    ensures batch[k] !in batch[k + 1..]
  {
    var tail := batch[k + 1..];
    forall q | 0 <= q < |tail| ensures tail[q] != batch[k] {
      assert tail[q] == batch[k + 1 + q];
    }
  }

  /** Every resolved attempt of `sent` marks its record in `after`. */
  predicate ResolvedMarked(before: Store, after: Store, sent: seq<Attempt>, now: nat -> nat) {
    forall i | 0 <= i < |sent| && sent[i].outcome.Resolved? ::
      && sent[i].id < |before| && sent[i].id < |after|
      && after[sent[i].id] == Sent(before[sent[i].id], now(sent[i].pos), sent[i].outcome.txid)
  }

  /** One step of `SettleResolved`, stated on the stores alone. */
  lemma ResolvedStep(store0: Store, store1: Store, store2: Store, batch: seq<nat>, k: nat,
                     first: seq<Attempt>, rest: seq<Attempt>, now: nat -> nat)
    requires BatchOf(batch, store0) && k < |batch|
    requires |store1| == |store0| == |store2| && |first| <= 1
    requires forall j | 0 <= j < |store0| && j != batch[k] :: store1[j] == store0[j]
    requires first != [] ==>
      && first[0].id == batch[k] && first[0].outcome.Resolved? && store2[batch[k]] == store1[batch[k]]
      && store1[batch[k]] == Sent(store0[batch[k]], now(first[0].pos), first[0].outcome.txid)
    requires InBatchOrder(rest, batch, k + 1)
    requires ResolvedMarked(store1, store2, rest, now)
    ensures ResolvedMarked(store0, store2, first + rest, now)
  {
    var all := first + rest;
    forall i | 0 <= i < |all| && all[i].outcome.Resolved?
      ensures && all[i].id < |store0| && all[i].id < |store2|
              && store2[all[i].id] == Sent(store0[all[i].id], now(all[i].pos), all[i].outcome.txid)
    {
      if i >= |first| {
        var a := rest[i - |first|];
        assert all[i] == a;
        assert batch[k] < batch[a.pos];
      }
    }
  }

  /** A resolved send marks its record swapped with the returned id and the
      time after the send. */
  lemma {:induction false} SettleResolved(e: Engine, batch: seq<nat>, gates: seq<Gate>, k: nat, ledger: Ledger)
    requires BatchOf(batch, e.store) && |gates| == |batch|
    ensures var s := SettleFrom(e, batch, gates, k, ledger);
      ResolvedMarked(e.store, s.engine.store, s.attempts, ledger.now)
    decreases |batch| - k
  {
    if k < |batch| {
      var one := SettleOne(e, k, batch[k], gates[k], ledger);
      if one.stop.Done? {
        SettleResolved(one.engine, batch, gates, k + 1, ledger);
        SettleAttemptsOrdered(one.engine, batch, gates, k + 1, ledger);
        var rest := SettleFrom(one.engine, batch, gates, k + 1, ledger);
        if one.attempts != [] {
          SettleFrame(one.engine, batch, gates, k + 1, ledger);
          NotLater(batch, e.store, k);
          assert rest.engine.store[batch[k]] == one.engine.store[batch[k]];
        }
        ResolvedStep(e.store, one.engine.store, rest.engine.store, batch, k, one.attempts, rest.attempts, ledger.now);
      }
    }
  }

  /** Only the last send can have failed to resolve, and then it is the one
      the batch stopped at: rejected when the batch failed, never settled
      when it hangs. */
  lemma {:induction false} SettleUnresolved(e: Engine, batch: seq<nat>, gates: seq<Gate>, k: nat, ledger: Ledger)
    requires BatchOf(batch, e.store) && |gates| == |batch|
    ensures var s := SettleFrom(e, batch, gates, k, ledger);
      forall i | 0 <= i < |s.attempts| && !s.attempts[i].outcome.Resolved? ::
        && i == |s.attempts| - 1 && !s.stop.Done? && s.stop.id == s.attempts[i].id
        && (s.stop.FailedAt? <==> s.attempts[i].outcome.Rejected?)
    decreases |batch| - k
  {
    if k < |batch| {
      var one := SettleOne(e, k, batch[k], gates[k], ledger);
      if one.stop.Done? {
        SettleUnresolved(one.engine, batch, gates, k + 1, ledger);
        var rest := SettleFrom(one.engine, batch, gates, k + 1, ledger);
        assert var r := SettleFrom(one.engine, batch, gates, k + 1, ledger);
          forall i | 0 <= i < |r.attempts| && !r.attempts[i].outcome.Resolved? ::
            && i == |r.attempts| - 1 && !r.stop.Done? && r.stop.id == r.attempts[i].id
            && (r.stop.FailedAt? <==> r.attempts[i].outcome.Rejected?);
        var all := one.attempts + rest.attempts;
        forall i | |one.attempts| <= i < |all| ensures all[i] == rest.attempts[i - |one.attempts|] {
        }
      }
    }
  }

  /** The record the batch stopped at is marked in error after a failure,
      and left locked after a send that never settles. */
  lemma {:induction false} SettleStopRecord(e: Engine, batch: seq<nat>, gates: seq<Gate>, k: nat, ledger: Ledger)
    requires BatchOf(batch, e.store) && |gates| == |batch|
    ensures var s := SettleFrom(e, batch, gates, k, ledger);
      && (!s.stop.Done? ==> s.stop.id < |e.store|)
      && (s.stop.FailedAt? ==> s.engine.store[s.stop.id] == SendFailed(e.store[s.stop.id]))
      && (s.stop.HungAt? ==> s.engine.store[s.stop.id] == e.store[s.stop.id].(isSwapped := true))
    decreases |batch| - k
  {
    if k < |batch| {
      var one := SettleOne(e, k, batch[k], gates[k], ledger);
      if one.stop.Done? {
        SettleStopRecord(one.engine, batch, gates, k + 1, ledger);
        SettleFrame(one.engine, batch, gates, k + 1, ledger);
        var rest := SettleFrom(one.engine, batch, gates, k + 1, ledger);
        assert var r := SettleFrom(one.engine, batch, gates, k + 1, ledger);
          && StoppedWithin(r.stop, one.engine.store, r.engine.store, batch[k + 1..])
          && (r.stop.FailedAt? ==> r.engine.store[r.stop.id] == SendFailed(one.engine.store[r.stop.id]))
          && (r.stop.HungAt? ==> r.engine.store[r.stop.id] == one.engine.store[r.stop.id].(isSwapped := true));
        if !rest.stop.Done? {
          NotLater(batch, e.store, k);
          assert one.engine.store[rest.stop.id] == e.store[rest.stop.id];
        }
      }
    }
  }

  /** Settling a batch of settleable records keeps every record well formed. */
  lemma {:induction false} SettleWellFormed(e: Engine, batch: seq<nat>, gates: seq<Gate>, k: nat, ledger: Ledger)
    requires BatchOf(batch, e.store) && |gates| == |batch|
    requires forall p | k <= p < |batch| :: Settleable(e.store[batch[p]])
    requires AllWellFormed(e.store)
    ensures AllWellFormed(SettleFrom(e, batch, gates, k, ledger).engine.store)
    decreases |batch| - k
  {
    if k < |batch| {
      var one := SettleOne(e, k, batch[k], gates[k], ledger);
      forall j | 0 <= j < |one.engine.store| ensures WellFormed(one.engine.store[j]) {
        if j != batch[k] {
          assert one.engine.store[j] == e.store[j];
        }
      }
      if one.stop.Done? {
        forall p | k + 1 <= p < |batch| ensures Settleable(one.engine.store[batch[p]]) {
          assert batch[k] < batch[p];
        }
        SettleWellFormed(one.engine, batch, gates, k + 1, ledger);
      }
    }
  }

  // ------------------------------------------------ the whole batch, top level

  /** Every send of a settlement round is for a settleable record of the
      batch that has no earlier tagged payout and whose balance check passed;
      it pays the record's quantity to its address with its tag; sends go in
      batch order and use the nonces after the engine's, one each, and without
      a numeric nonce nothing is sent. */
  lemma SettleSends(e: Engine, ledger: Ledger)
    ensures var batch, s := Batch(e.store), Settle(e, ledger);
      && (forall i | 0 <= i < |s.attempts| ::
            && s.attempts[i].pos < |batch| && s.attempts[i].id == batch[s.attempts[i].pos]
            && Settleable(e.store[s.attempts[i].id])
            && Earlier(e.store[s.attempts[i].id], s.attempts[i].pos, ledger).None?
            && Funded(e.store[s.attempts[i].id], s.attempts[i].pos, ledger))
      && (forall i, j | 0 <= i < j < |s.attempts| :: s.attempts[i].pos < s.attempts[j].pos)
      && (e.nonce.None? ==> s.attempts == [] && s.engine.nonce == None)
      && (e.nonce.Some? ==>
            && s.engine.nonce == Some(e.nonce.value + |s.attempts|)
            && forall i | 0 <= i < |s.attempts| ::
                 s.attempts[i].request == RequestFor(e.store[s.attempts[i].id], e.nonce.value + i))
  {
    var batch := Batch(e.store);
    var gates := Gates(e.store, batch, ledger);
    var s := SettleFrom(e, batch, gates, 0, ledger);
    SettleAttempts(e, batch, gates, 0, ledger);
    SettleAttemptsOrdered(e, batch, gates, 0, ledger);
    SettleNonces(e, batch, gates, 0, ledger);
    forall i | 0 <= i < |s.attempts|
      ensures && Earlier(e.store[s.attempts[i].id], s.attempts[i].pos, ledger).None?
              && Funded(e.store[s.attempts[i].id], s.attempts[i].pos, ledger)
    {
      assert SentFor(e.store, batch, gates, 0, s.attempts[i]);
      assert gates[s.attempts[i].pos] == GateOf(e.store[batch[s.attempts[i].pos]], s.attempts[i].pos, ledger);
    }
  }

  /** Outside the records it sent for, a settlement round changes only
      records of the batch and only their payout fields; a record it reached
      that has an earlier tagged payout is marked with that payout (the last
      one listed), and one it reached whose balance check failed is left
      untouched. */
  lemma SettleSkips(e: Engine, ledger: Ledger)
    ensures var batch, s := Batch(e.store), Settle(e, ledger);
      && Framed(e.store, s.engine.store, batch)
      && (forall p | 0 <= p < |batch| && Reached(s.stop, batch, p) ::
            var r := e.store[batch[p]];
            && (Earlier(r, p, ledger).Some? ==> s.engine.store[batch[p]] == Paid(r, Earlier(r, p, ledger).value))
            && (Earlier(r, p, ledger).None? && !Funded(r, p, ledger) ==> s.engine.store[batch[p]] == r))
  {
    var batch := Batch(e.store);
    var gates := Gates(e.store, batch, ledger);
    SettleFrame(e, batch, gates, 0, ledger);
    SettleGated(e, batch, gates, 0, ledger);
    assert batch[0..] == batch;
    var s := SettleFrom(e, batch, gates, 0, ledger);
    forall p | 0 <= p < |batch| ensures gates[p] == GateOf(e.store[batch[p]], p, ledger) {
    }
  }

  /** How a settlement round ends: a resolved send marks its record swapped
      with the returned id and the time after the send; only the last send
      can have failed to resolve, and the round stops at its record, marked
      in error after a rejection and left locked when the send never settles. */
  lemma SettleEndings(e: Engine, ledger: Ledger)
    ensures var s := Settle(e, ledger);
      && ResolvedMarked(e.store, s.engine.store, s.attempts, ledger.now)
      && (forall i | 0 <= i < |s.attempts| && !s.attempts[i].outcome.Resolved? ::
            && i == |s.attempts| - 1 && !s.stop.Done? && s.stop.id == s.attempts[i].id
            && (s.stop.FailedAt? <==> s.attempts[i].outcome.Rejected?))
      && (!s.stop.Done? ==> s.stop.id < |e.store|)
      && (s.stop.FailedAt? ==> s.engine.store[s.stop.id] == SendFailed(e.store[s.stop.id]))
      && (s.stop.HungAt? ==> s.engine.store[s.stop.id] == e.store[s.stop.id].(isSwapped := true))
  {
    var batch := Batch(e.store);
    var gates := Gates(e.store, batch, ledger);
    SettleResolved(e, batch, gates, 0, ledger);
    SettleUnresolved(e, batch, gates, 0, ledger);
    SettleStopRecord(e, batch, gates, 0, ledger);
  }

  /** A settlement round keeps every record well formed. */
  lemma SettleKeepsWellFormed(e: Engine, ledger: Ledger)
    requires AllWellFormed(e.store)
    ensures AllWellFormed(Settle(e, ledger).engine.store)
  {
    var batch := Batch(e.store);
    SettleWellFormed(e, batch, Gates(e.store, batch, ledger), 0, ledger);
  }
}

=== FILE: solar.dfy ===
/** The deterministic shaping inside the Solar wallet adapter
    (src/wallets/solar.ts): HTTP answers are inputs, the code around them is
    modelled as written. */
module Solar {
  import opened Wrappers
  import opened Decimal

  /** Solar amounts are integers of base units; the adapter shows them in coins
      with this many decimals. */
  const CoinDecimals: nat := 8

  /** `Big(units).div(10 ** 8).toFixed(8)` with `Big.RM = 0`. */
  function ToCoins(units: nat): string {
    ToFixed(units, CoinDecimals)
  }

  /** The coin text of an amount parses back to exactly that many base units. */
  lemma ToCoinsExact(units: nat)
    ensures Parse(ToCoins(units)) == Some(Dec(units, CoinDecimals))
  {
    ParseToFixed(units, CoinDecimals);
  }

  function Status(confirmations: int): (s: string)
    ensures s == "confirmed" <==> confirmations > 0
  {
    if confirmations > 0 then "confirmed" else "pending"
  }

  // ---------------------------------------------------------------- payloads

  datatype Payment = Payment(recipientId: string, amount: nat)

  /** A transaction as the Solar API returns it (the fields the adapter reads).
      Type 0 is a single transfer, type 6 a multi-payment. */
  datatype ApiTx = ApiTx(
    id: string, txType: int, sender: string, recipient: string,
    amount: nat, fee: nat, confirmations: int, blockId: string,
    timestamp: int, vendorField: string, payments: seq<Payment>)

  // ------------------------------------------------------------ getTransaction

  /** Answer of `GET /transactions/{id}`: the request failed, it has no `data`,
      or it carries a transaction. */
  datatype TxReply = TxFetchFailed | TxNoData | TxData(tx: ApiTx)

  datatype Detail = Detail(amount: string, kind: string, fromAddress: string, toAddress: string, paymentId: string)

  /** The transaction summary `getTransaction` resolves with; `NoInfo` is the
      empty object `{}` it resolves with for other transaction types. */
  datatype TxInfo =
    | TxInfo(totalAmount: string, blockHash: string, blockNumber: int, txid: string, fee: string,
             status: string, confirmations: int, timestamp: int, details: seq<Detail>)
    | NoInfo

  /** Sum of the payment amounts, in base units. */
  function PaymentTotal(ps: seq<Payment>): nat {
    if ps == [] then 0 else PaymentTotal(ps[..|ps| - 1]) + ps[|ps| - 1].amount
  }

  function PaymentDetail(p: Payment, sender: string): Detail {
    Detail(ToCoins(p.amount), "transfer", sender, p.recipientId, "")
  }

  function PaymentDetails(ps: seq<Payment>, sender: string): seq<Detail> {
    seq(|ps|, i requires 0 <= i < |ps| => PaymentDetail(ps[i], sender))
  }

  /** Answer of `GET /blocks/{id}`: the request failed, the body has no
      `data`, or the block's height. */
  datatype BlockReply = BlockFetchFailed | BlockNoData | BlockData(height: int)

  /** `getBlockById`, reduced to the height `getTransaction` reads. */
  function GetBlockById(reply: BlockReply): Result<int> {
    match reply
    case BlockFetchFailed => Fail(Thrown)
    case BlockNoData => Fail(Message("Block Not Found"))
    case BlockData(height) => Ok(height)
  }

  /** What `getTransaction` settles with, given the answer about the
      transaction and the answer about its block; a rejection of
      `getBlockById` is passed on with its reason. */
  function TransactionInfo(reply: TxReply, block: BlockReply): (r: Result<TxInfo>)
    ensures r.Fail? <==> !(reply.TxData? && block.BlockData?)
    ensures reply.TxNoData? ==> r == Fail(Message("Not Found"))
    ensures reply.TxData? && block.BlockNoData? ==> r == Fail(Message("Block Not Found"))
  {
    match reply
    case TxFetchFailed => Fail(Thrown)
    case TxNoData => Fail(Message("Not Found"))
    case TxData(tx) =>
      var height := GetBlockById(block);
      if height.Fail? then Fail(height.reason)
      else if tx.txType == 0 then
        Ok(TxInfo(ToCoins(tx.amount), tx.blockId, height.value, tx.id, ToCoins(tx.fee),
                  Status(tx.confirmations), tx.confirmations, tx.timestamp,
                  [Detail(ToCoins(tx.amount), "transfer", tx.sender, tx.recipient, "")]))
      else if tx.txType == 6 then
        Ok(TxInfo(ToCoins(PaymentTotal(tx.payments)), tx.blockId, height.value, tx.id, ToCoins(tx.fee),
                  Status(tx.confirmations), tx.confirmations, tx.timestamp,
                  PaymentDetails(tx.payments, tx.sender)))
      else Ok(NoInfo)
  }

  /** `getTransaction`: the multi-payment case accumulates the total and the
      details in a loop, as the adapter does. */
  method GetTransaction(reply: TxReply, block: BlockReply) returns (r: Result<TxInfo>)
    ensures r == TransactionInfo(reply, block)
  {
    match reply
    case TxFetchFailed => r := Fail(Thrown);
    case TxNoData => r := Fail(Message("Not Found"));
    case TxData(tx) =>
      var height := GetBlockById(block);
      if height.Fail? {
        r := Fail(height.reason);
      } else if tx.txType == 0 {
        r := Ok(TxInfo(ToCoins(tx.amount), tx.blockId, height.value, tx.id, ToCoins(tx.fee),
                       Status(tx.confirmations), tx.confirmations, tx.timestamp,
                       [Detail(ToCoins(tx.amount), "transfer", tx.sender, tx.recipient, "")]));
      } else if tx.txType == 6 {
        var total, details := MultiTransfer(tx.payments, tx.sender);
        r := Ok(TxInfo(ToCoins(total), tx.blockId, height.value, tx.id, ToCoins(tx.fee),
                       Status(tx.confirmations), tx.confirmations, tx.timestamp, details));
      } else {
        r := Ok(NoInfo);
      }
  }

  /** The loop of `getTransaction` over the payments of a multi-payment. */
  method MultiTransfer(ps: seq<Payment>, sender: string) returns (total: nat, details: seq<Detail>)
    ensures total == PaymentTotal(ps)
    ensures details == PaymentDetails(ps, sender)
  {
    details := [];
    total := 0;
    var i := 0;
    while i < |ps|
      invariant 0 <= i <= |ps|
      invariant total == PaymentTotal(ps[..i])
      invariant |details| == i
      invariant forall k | 0 <= k < i :: details[k] == PaymentDetail(ps[k], sender)
    {
      assert ps[..i + 1][..i] == ps[..i];
      total := total + ps[i].amount;
      details := details + [PaymentDetail(ps[i], sender)];
      i := i + 1;
    }
    assert ps[..i] == ps;
  }

  /** The total of a concatenation is the sum of the totals. */
  lemma {:induction false} PaymentTotalAppend(a: seq<Payment>, b: seq<Payment>)
    ensures PaymentTotal(a + b) == PaymentTotal(a) + PaymentTotal(b)
  {
    if b == [] {
      assert a + b == a;
    } else {
      assert (a + b)[..|a + b| - 1] == a + b[..|b| - 1];
      PaymentTotalAppend(a, b[..|b| - 1]);
    }
  }

  /** Every payment's amount is part of the total. */
  lemma PaymentTotalCovers(ps: seq<Payment>, k: nat)
    requires k < |ps|
    ensures ps[k].amount <= PaymentTotal(ps)
  {
    assert ps == ps[..k + 1] + ps[k + 1..];
    PaymentTotalAppend(ps[..k + 1], ps[k + 1..]);
    assert ps[..k + 1][..k] == ps[..k];
  }

  /** A transaction and its block that both have data resolve; the summary
      exists exactly for transfers and multi-payments, and then carries the
      transaction id, the block height and the status. */
  lemma TransactionInfoShape(reply: TxReply, block: BlockReply)
    requires reply.TxData? && block.BlockData?
    ensures var tx, r := reply.tx, TransactionInfo(reply, block);
      && r.Ok?
      && (tx.txType == 0 || tx.txType == 6 <==> r.value.TxInfo?)
      && (r.value.TxInfo? ==>
            && (r.value.status == "confirmed" <==> tx.confirmations > 0)
            && r.value.txid == tx.id && r.value.blockNumber == block.height)
  {
  }

  /** A single transfer has a single detail, to its recipient, and reports
      its amount in coins as the total. */
  lemma TransferInfoShape(reply: TxReply, block: BlockReply)
    requires reply.TxData? && block.BlockData? && reply.tx.txType == 0
    ensures var tx, r := reply.tx, TransactionInfo(reply, block);
      && r.Ok? && r.value.TxInfo?
      && |r.value.details| == 1
      && r.value.details[0].toAddress == tx.recipient
      && r.value.details[0].fromAddress == tx.sender
      && Parse(r.value.totalAmount) == Some(Dec(tx.amount, CoinDecimals))
  {
    ToCoinsExact(reply.tx.amount);
  }

  /** A multi-payment reports the sum of its payments as its total, which no
      single payment exceeds, and one detail per payment in payment order. */
  lemma MultiPaymentInfoShape(reply: TxReply, block: BlockReply)
    requires reply.TxData? && block.BlockData? && reply.tx.txType == 6
    ensures var tx, r := reply.tx, TransactionInfo(reply, block);
      && r.Ok? && r.value.TxInfo?
      && Parse(r.value.totalAmount) == Some(Dec(PaymentTotal(tx.payments), CoinDecimals))
      && (forall i | 0 <= i < |tx.payments| :: tx.payments[i].amount <= PaymentTotal(tx.payments))
      && |r.value.details| == |tx.payments|
      && forall i | 0 <= i < |tx.payments| ::
           && r.value.details[i].toAddress == tx.payments[i].recipientId
           && r.value.details[i].fromAddress == tx.sender
           && Parse(r.value.details[i].amount) == Some(Dec(tx.payments[i].amount, CoinDecimals))
  {
    var tx := reply.tx;
    ToCoinsExact(PaymentTotal(tx.payments));
    forall i | 0 <= i < |tx.payments|
      ensures tx.payments[i].amount <= PaymentTotal(tx.payments)
      ensures Parse(ToCoins(tx.payments[i].amount)) == Some(Dec(tx.payments[i].amount, CoinDecimals))
    {
      PaymentTotalCovers(tx.payments, i);
      ToCoinsExact(tx.payments[i].amount);
    }
  }

  // ----------------------------------------------------- getRecentTransactions

  /** A list answer of the API: the request failed, which the adapter turns
      into an empty list; the body has no `data`, on which the loop over it
      throws outside any `try`, so the promise never settles; or the items. */
  datatype ListReply<T> = ListFetchFailed | ListNoData | ListData(items: seq<T>)

  /** The items the adapter loops over once the answer has been read. */
  function Items<T>(reply: ListReply<T>): seq<T> {
    if reply.ListData? then reply.items else []
  }

  /** A block of `GET /blocks`: its transaction count and the answer of
      `GET /blocks/{id}/transactions`. */
  datatype BlockRow = BlockRow(id: string, transactions: int, txs: ListReply<ApiTx>)

  datatype Recent = Recent(id: string, address: string, kind: string, amount: string,
                           fee: int, confirmations: int, paymentId: string)

  function RecentEntry(id: string, address: string, amount: nat): Recent {
    Recent(id, address, "transfer", ToCoins(amount), 0, 0, "")
  }

  /** Entries for the payments of a multi-payment whose recipient is watched. */
  function PaymentEntries(id: string, ps: seq<Payment>, filter: seq<string>): seq<Recent> {
    if ps == [] then []
    else
      var p := ps[|ps| - 1];
      PaymentEntries(id, ps[..|ps| - 1], filter)
        + (if p.recipientId in filter then [RecentEntry(id, p.recipientId, p.amount)] else [])
  }

  function TxEntries(tx: ApiTx, filter: seq<string>): (r: seq<Recent>)
    ensures tx.txType == 0 ==> |r| <= 1 && (|r| == 1 <==> tx.recipient in filter)
    ensures tx.txType == 0 && tx.recipient in filter ==> r == [RecentEntry(tx.id, tx.recipient, tx.amount)]
    ensures tx.txType != 0 && tx.txType != 6 ==> r == []
  {
    if tx.txType == 0 then
      if tx.recipient in filter then [RecentEntry(tx.id, tx.recipient, tx.amount)] else []
    else if tx.txType == 6 then PaymentEntries(tx.id, tx.payments, filter)
    else []
  }

  function TxListEntries(txs: seq<ApiTx>, filter: seq<string>): seq<Recent> {
    if txs == [] then [] else TxListEntries(txs[..|txs| - 1], filter) + TxEntries(txs[|txs| - 1], filter)
  }

  /** A block is only looked into when it reports transactions; a failed
      transaction request counts as an empty list. */
  function BlockEntries(b: BlockRow, filter: seq<string>): seq<Recent> {
    if b.transactions > 0 then TxListEntries(Items(b.txs), filter) else []
  }

  /** `getRecentTransactions` settles: the block list and the transaction list
      of every block it looks into have `data`. */
  predicate RecentSettles(blocks: ListReply<BlockRow>) {
    !blocks.ListNoData? && TxsReadable(Items(blocks))
  }

  /** Every block that reports transactions has a transaction list with `data`. */
  predicate TxsReadable(bs: seq<BlockRow>) {
    forall i | 0 <= i < |bs| :: bs[i].transactions > 0 ==> !bs[i].txs.ListNoData?
  }

  function RecentEntries(blocks: seq<BlockRow>, filter: seq<string>): seq<Recent> {
    if blocks == [] then []
    else RecentEntries(blocks[..|blocks| - 1], filter) + BlockEntries(blocks[|blocks| - 1], filter)
  }

  /** `getRecentTransactions`: three nested loops over blocks, their
      transactions and the payments of multi-payments; `None` when the promise
      never settles. A failed block listing counts as no blocks. */
  method GetRecentTransactions(blocks: ListReply<BlockRow>, filter: seq<string>) returns (r: Option<seq<Recent>>)
    ensures r.Some? <==> RecentSettles(blocks)
    ensures blocks.ListFetchFailed? ==> r == Some([])
    ensures r.Some? ==> r.value == RecentEntries(Items(blocks), filter)
  {
    if !blocks.ListData? {
      return if blocks.ListNoData? then None else Some([]);
    }
    var bs := blocks.items;
    var found: seq<Recent> := [];
    var i := 0;
    while i < |bs|
      invariant 0 <= i <= |bs|
      invariant found == RecentEntries(bs[..i], filter)
      invariant TxsReadable(bs[..i])
    {
      var more := ScanBlock(bs[i], filter);
      if more.None? {
        assert !TxsReadable(bs) by {
          assert bs[i].transactions > 0 && bs[i].txs.ListNoData?;
        }
        return None;
      }
      TxsReadableStep(bs, i);
      assert bs[..i + 1][..i] == bs[..i];
      found := found + more.value;
      i := i + 1;
    }
    assert bs[..i] == bs;
    r := Some(found);
  }

  lemma TxsReadableStep(bs: seq<BlockRow>, i: nat)
    requires i < |bs| && TxsReadable(bs[..i])
    requires bs[i].transactions > 0 ==> !bs[i].txs.ListNoData?
    ensures TxsReadable(bs[..i + 1])
  {
    assert forall k | 0 <= k < i :: bs[..i + 1][k] == bs[..i][k];
  }

  /** The body of the outer loop: one block, looked into only when it
      reports transactions; `None` when its transaction list has no `data`. */
  method ScanBlock(b: BlockRow, filter: seq<string>) returns (found: Option<seq<Recent>>)
    ensures found.None? <==> b.transactions > 0 && b.txs.ListNoData?
    ensures found.Some? ==> found.value == BlockEntries(b, filter)
  {
    if b.transactions <= 0 {
      return Some([]);
    }
    if b.txs.ListNoData? {
      return None;
    }
    var txs := ScanBlockTransactions(Items(b.txs), filter);
    found := Some(txs);
  }

  /** The middle loop: the transactions of one block. */
  method ScanBlockTransactions(txs: seq<ApiTx>, filter: seq<string>) returns (r: seq<Recent>)
    ensures r == TxListEntries(txs, filter)
  {
    r := [];
    var j := 0;
    while j < |txs|
      invariant 0 <= j <= |txs|
      invariant r == TxListEntries(txs[..j], filter)
    {
      assert txs[..j + 1][..j] == txs[..j];
      var tx := txs[j];
      if tx.txType == 0 {
        if tx.recipient in filter {
          r := r + [RecentEntry(tx.id, tx.recipient, tx.amount)];
        }
      } else if tx.txType == 6 {
        var found := ScanPayments(tx.id, tx.payments, filter);
        r := r + found;
      }
      j := j + 1;
    }
    assert txs[..j] == txs;
  }

  /** The inner loop: the payments of one multi-payment. */
  method ScanPayments(id: string, ps: seq<Payment>, filter: seq<string>) returns (r: seq<Recent>)
    ensures r == PaymentEntries(id, ps, filter)
  {
    r := [];
    var k := 0;
    while k < |ps|
      invariant 0 <= k <= |ps|
      invariant r == PaymentEntries(id, ps[..k], filter)
    {
      assert ps[..k + 1][..k] == ps[..k];
      if ps[k].recipientId in filter {
        r := r + [RecentEntry(id, ps[k].recipientId, ps[k].amount)];
      }
      k := k + 1;
    }
    assert ps[..k] == ps;
  }

  /** Every reported entry pays a watched address, with fee 0 and 0 confirmations. */
  predicate WatchedEntries(es: seq<Recent>, filter: seq<string>) {
    forall e | e in es :: e.address in filter && e.fee == 0 && e.confirmations == 0 && e.kind == "transfer"
  }

  lemma {:induction false} PaymentEntriesWatched(id: string, ps: seq<Payment>, filter: seq<string>)
    ensures WatchedEntries(PaymentEntries(id, ps, filter), filter)
  {
    if ps != [] {
      PaymentEntriesWatched(id, ps[..|ps| - 1], filter);
    }
  }

  lemma {:induction false} TxListEntriesWatched(txs: seq<ApiTx>, filter: seq<string>)
    ensures WatchedEntries(TxListEntries(txs, filter), filter)
  {
    if txs != [] {
      TxListEntriesWatched(txs[..|txs| - 1], filter);
      var tx := txs[|txs| - 1];
      if tx.txType == 6 {
        PaymentEntriesWatched(tx.id, tx.payments, filter);
      }
    }
  }

  /** Only payments to watched addresses are reported, all with fee and
      confirmations 0. */
  lemma {:induction false} RecentEntriesWatched(blocks: seq<BlockRow>, filter: seq<string>)
    ensures WatchedEntries(RecentEntries(blocks, filter), filter)
  {
    if blocks != [] {
      RecentEntriesWatched(blocks[..|blocks| - 1], filter);
      var b := blocks[|blocks| - 1];
      if b.transactions > 0 {
        TxListEntriesWatched(Items(b.txs), filter);
      }
    }
  }

  /** A multi-payment yields one entry per watched payment, in payment order:
      when every recipient is watched, exactly one entry per payment. */
  lemma {:induction false} PaymentEntriesAllWatched(id: string, ps: seq<Payment>, filter: seq<string>)
    requires forall i | 0 <= i < |ps| :: ps[i].recipientId in filter
    ensures |PaymentEntries(id, ps, filter)| == |ps|
    ensures forall i | 0 <= i < |ps| ::
      PaymentEntries(id, ps, filter)[i] == RecentEntry(id, ps[i].recipientId, ps[i].amount)
  {
    if ps != [] {
      var init := ps[..|ps| - 1];
      var last := ps[|ps| - 1];
      PaymentEntriesAllWatched(id, init, filter);
      var prev := PaymentEntries(id, init, filter);
      var e := RecentEntry(id, last.recipientId, last.amount);
      assert PaymentEntries(id, ps, filter) == prev + [e];
      forall i | 0 <= i < |ps|
        ensures (prev + [e])[i] == RecentEntry(id, ps[i].recipientId, ps[i].amount)
      {
        if i < |init| {
          assert (prev + [e])[i] == prev[i];
          assert init[i] == ps[i];
        } else {
          assert (prev + [e])[i] == e;
        }
      }
    }
  }

  /** The entries of a multi-payment are the entries of its parts, in order:
      with `PaymentEntriesAllWatched` and `PaymentEntriesNoneWatched` on single
      payments, each watched payment gives one entry in its place and every
      other payment gives none. */
  lemma {:induction false} PaymentEntriesAppend(id: string, a: seq<Payment>, b: seq<Payment>, filter: seq<string>)
    ensures PaymentEntries(id, a + b, filter) == PaymentEntries(id, a, filter) + PaymentEntries(id, b, filter)
  {
    if b == [] {
      assert a + b == a;
    } else {
      var init := b[..|b| - 1];
      assert (a + b)[..|a + b| - 1] == a + init;
      assert (a + b)[|a + b| - 1] == b[|b| - 1];
      PaymentEntriesAppend(id, a, init, filter);
    }
  }

  /** A multi-payment none of whose recipients is watched yields nothing. */
  lemma {:induction false} PaymentEntriesNoneWatched(id: string, ps: seq<Payment>, filter: seq<string>)
    requires forall p | p in ps :: p.recipientId !in filter
    ensures PaymentEntries(id, ps, filter) == []
  {
    if ps != [] {
      PaymentEntriesNoneWatched(id, ps[..|ps| - 1], filter);
    }
  }

  // ------------------------------------------ getTransactionsBySenderRecipient

  datatype Listed = Listed(id: string, sender: string, recipient: string, kind: string,
                           amount: string, confirmations: int, vendorField: string, timestamp: int)

  function ListedOf(tx: ApiTx): Listed {
    Listed(tx.id, tx.sender, tx.recipient, "transfer", ToCoins(tx.amount), tx.confirmations,
           tx.vendorField, tx.timestamp)
  }

  /** A listed row keeps the transaction's id, vendor field and unix
      timestamp, and its amount in coins parses back to the base units. */
  predicate Keeps(l: Listed, tx: ApiTx) {
    && l.id == tx.id && l.vendorField == tx.vendorField && l.timestamp == tx.timestamp
    && Parse(l.amount) == Some(Dec(tx.amount, CoinDecimals))
  }

  lemma ListedOfKeeps(tx: ApiTx)
    ensures Keeps(ListedOf(tx), tx)
  {
    ToCoinsExact(tx.amount);
  }

  /** The list `getTransactionsBySenderRecipient` resolves with, `None` when
      it never settles; a failed request gives the empty list. */
  function Listing(reply: ListReply<ApiTx>): Option<seq<Listed>> {
    match reply
    case ListFetchFailed => Some([])
    case ListNoData => None
    case ListData(txs) => Some(seq(|txs|, i requires 0 <= i < |txs| => ListedOf(txs[i])))
  }

  /** `getTransactionsBySenderRecipient`: maps the answer one to one, in order. */
  method GetTransactionsBySenderRecipient(reply: ListReply<ApiTx>) returns (r: Option<seq<Listed>>)
    ensures r.None? <==> reply.ListNoData?
    ensures reply.ListFetchFailed? ==> r == Some([])
    ensures reply.ListData? ==> r.Some? && |r.value| == |reply.items|
    ensures reply.ListData? ==> forall i | 0 <= i < |reply.items| :: Keeps(r.value[i], reply.items[i])
    ensures r == Listing(reply)
  {
    if !reply.ListData? {
      return if reply.ListNoData? then None else Some([]);
    }
    var txs := reply.items;
    var listed: seq<Listed> := [];
    var i := 0;
    while i < |txs|
      invariant 0 <= i <= |txs|
      invariant |listed| == i
      invariant forall k | 0 <= k < i :: listed[k] == ListedOf(txs[k])
    {
      listed := listed + [ListedOf(txs[i])];
      i := i + 1;
    }
    assert listed == seq(|txs|, k requires 0 <= k < |txs| => ListedOf(txs[k]));
    assert Listing(reply) == Some(listed);
    forall k | 0 <= k < |listed| ensures Keeps(listed[k], txs[k]) {
      ListedOfKeeps(txs[k]);
    }
    r := Some(listed);
  }

  // ------------------------------------------------------ getBalance, sending

  /** Answer of `GET /wallets/{address}`: the request failed, the body has no
      `data`, or the wallet's balance and nonce fields (each possibly absent). */
  datatype WalletReply = WalletFetchFailed | WalletNoData | Wallet(balance: Option<nat>, nonce: Option<nat>)

  /** `getBalance`: the balance in coins, or "0" when the wallet has none. */
  function GetBalance(reply: WalletReply): (r: Result<string>)
    ensures reply.WalletFetchFailed? <==> r.Fail?
    ensures reply.WalletNoData? || (reply.Wallet? && reply.balance.None?) ==> r == Ok("0")
    ensures reply.Wallet? && reply.balance.Some? ==>
      r.Ok? && Parse(r.value) == Some(Dec(reply.balance.value, CoinDecimals))
  {
    match reply
    case WalletFetchFailed => Fail(Thrown)
    case WalletNoData => Ok("0")
    case Wallet(balance, _) =>
      if balance.Some? then
        ToCoinsExact(balance.value);
        Ok(ToCoins(balance.value))
      else Ok("0")
  }

  /** `getCurrentNonce`: the wallet's nonce field as it is (`None` when absent,
      which later makes the engine's nonce arithmetic throw); reading the field
      of a missing `data` throws, so the promise is rejected then as well as
      when the wallet cannot be fetched. */
  function GetCurrentNonce(reply: WalletReply): (r: Result<Option<nat>>)
    ensures !reply.Wallet? <==> r.Fail?
    ensures reply.Wallet? ==> r == Ok(reply.nonce)
  {
    match reply
    case WalletFetchFailed => Fail(Thrown)
    case WalletNoData => Fail(Thrown)
    case Wallet(_, nonce) => Ok(nonce)
  }

  /** Answer of one `POST /transactions`: the request failed, or its body, with
      `hasData` for a present `data`, the accepted ids (`None` when `data` has
      no `accept`) and an error text ("" for none). */
  datatype PostReply = PostFailed | Posted(hasData: bool, accept: Option<seq<string>>, error: string)

  /** Everything `sendTransaction` learns from outside: the sender wallet, the
      address validator's verdict (`None` when it throws), whether building and
      signing succeeded, and the three broadcast answers (all three go to the
      first provider). */
  datatype SendEnv = SendEnv(wallet: WalletReply, recipientValid: Option<bool>, signs: bool,
                             post1: PostReply, post2: PostReply, post3: PostReply)

  /** The state of the returned promise: still pending, resolved with a
      transaction id, or rejected. */
  datatype Settlement = Unsettled | Resolved(txid: string) | Rejected(reason: Reason)

  /** The transfer that is built, signed and broadcast. */
  datatype PayoutTx = PayoutTx(recipientId: string, fee: nat, amount: nat, nonce: nat, vendorField: string)

  /** How the promise settled, and the transfer broadcast, if any. */
  datatype SendResult = SendResult(settlement: Settlement, broadcast: Option<PayoutTx>)

  /** A promise settles once: a later `resolve` or `reject` is ignored. */
  function Then(first: Settlement, next: Settlement): (s: Settlement)
    ensures first.Unsettled? ==> s == next
    ensures !first.Unsettled? ==> s == first
  {
    if first.Unsettled? then next else first
  }

  /** The nonce given to the transfer. */
  function NextNonce(nonceOverride: Option<nat>, walletNonce: Option<nat>): nat {
    if nonceOverride.Some? then nonceOverride.value
    else if walletNonce.Some? then walletNonce.value + 1
    else 1
  }

  predicate Accepts(p: PostReply) {
    p.Posted? && p.hasData && p.accept.Some? && |p.accept.value| > 0
  }

  /** Reading `accept.length` of an answer whose `data` has no `accept` throws. */
  predicate AcceptThrows(p: PostReply) {
    p.Posted? && p.hasData && p.accept.None?
  }

  /** The id the broadcast resolves with: `accept[0]` of the first answer, in
      order 1, 2, 3, that accepted the transfer; the answers are read in that
      order, and one whose `data` lacks `accept` ends the send in the handler. */
  function Broadcast(env: SendEnv): Settlement {
    if AcceptThrows(env.post1) then UnknownError
    else if Accepts(env.post1) then Resolved(env.post1.accept.value[0])
    else if AcceptThrows(env.post2) then UnknownError
    else if Accepts(env.post2) then Resolved(env.post2.accept.value[0])
    else if AcceptThrows(env.post3) then UnknownError
    else if Accepts(env.post3) then Resolved(env.post3.accept.value[0])
    else if env.post1.Posted? && env.post1.hasData && env.post1.error != "" then Rejected(Message(env.post1.error))
    else Unsettled
  }

  function Coins(amount: string): Option<nat> {
    var d := Parse(amount);
    if d.Some? then Some(Units(d.value, CoinDecimals)) else None
  }

  /** The wallet answer carries a balance and the amount parses, so the funds
      check can be evaluated instead of throwing. */
  predicate FundsReadable(env: SendEnv, amount: string) {
    env.wallet.Wallet? && env.wallet.balance.Some? && Coins(amount).Some?
  }

  /** `amount` in coins, truncated to base units, plus the fee exceeds the balance. */
  predicate Insufficient(env: SendEnv, amount: string, feeUnits: nat) {
    FundsReadable(env, amount) && Coins(amount).value + feeUnits > env.wallet.balance.value
  }

  /** One of the three broadcast requests throws. */
  predicate PostThrows(env: SendEnv) {
    env.post1.PostFailed? || env.post2.PostFailed? || env.post3.PostFailed?
  }

  const UnknownError := Rejected(Message("Unknown Error"))

  /** `sendTransaction` with the fee already in base units. The code does not
      return after `reject`: a failed funds or address check settles the
      promise, but the transfer is still built and broadcast. */
  function SendTransaction(env: SendEnv, toAddress: string, paymentId: string, amount: string,
                           feeUnits: nat, nonceOverride: Option<nat>): (r: SendResult)
    ensures !FundsReadable(env, amount) ==> r == SendResult(UnknownError, None)
    ensures Insufficient(env, amount, feeUnits) ==> r.settlement == Rejected(Message("Insufficient Funds!"))
    ensures FundsReadable(env, amount) && !Insufficient(env, amount, feeUnits) ==>
      && (env.recipientValid.None? ==> r.settlement == UnknownError)
      && (env.recipientValid == Some(false) ==> r.settlement == Rejected(Message("Invalid Recipient Address!")))
      && (env.recipientValid == Some(true) && (!env.signs || PostThrows(env)) ==> r.settlement == UnknownError)
      && (env.recipientValid == Some(true) && env.signs && !PostThrows(env) ==> r.settlement == Broadcast(env))
    ensures r.settlement.Resolved? ==>
      && !Insufficient(env, amount, feeUnits) && env.recipientValid == Some(true) && r.broadcast.Some?
      && r.settlement == Broadcast(env)
    ensures r.broadcast.Some? <==> FundsReadable(env, amount) && env.recipientValid.Some? && env.signs
    ensures r.broadcast.Some? ==>
      r.broadcast.value == PayoutTx(toAddress, feeUnits, Coins(amount).value,
                                    NextNonce(nonceOverride, env.wallet.nonce), paymentId)
  {
    match env.wallet
    case WalletFetchFailed => SendResult(UnknownError, None)
    case WalletNoData => SendResult(UnknownError, None)
    case Wallet(balance, nonce) =>
      var units := Coins(amount);
      if units.None? || balance.None? then SendResult(UnknownError, None)
      else
        var funds := if units.value + feeUnits > balance.value then Rejected(Message("Insufficient Funds!")) else Unsettled;
        if env.recipientValid.None? then SendResult(Then(funds, UnknownError), None)
        else
          var checked := Then(funds, if env.recipientValid.value then Unsettled
                                     else Rejected(Message("Invalid Recipient Address!")));
          if !env.signs then SendResult(Then(checked, UnknownError), None)
          else
            var tx := PayoutTx(toAddress, feeUnits, units.value, NextNonce(nonceOverride, nonce), paymentId);
            var posted := if PostThrows(env) then UnknownError else Broadcast(env);
            SendResult(Then(checked, posted), Some(tx))
  }

  /** The nonce of the broadcast transfer is the override when there is one,
      otherwise the wallet's nonce plus one, or 1 when the wallet has none. */
  lemma SendNonce(env: SendEnv, toAddress: string, paymentId: string, amount: string,
                  feeUnits: nat, nonceOverride: Option<nat>)
    requires SendTransaction(env, toAddress, paymentId, amount, feeUnits, nonceOverride).broadcast.Some?
    ensures var n := SendTransaction(env, toAddress, paymentId, amount, feeUnits, nonceOverride).broadcast.value.nonce;
      && (nonceOverride.Some? ==> n == nonceOverride.value)
      && (nonceOverride.None? && env.wallet.nonce.Some? ==> n == env.wallet.nonce.value + 1)
      && (nonceOverride.None? && env.wallet.nonce.None? ==> n == 1)
  {
  }
}

=== FILE: swapper.dfy ===
/** The swap engine (src/swapper.ts): its state, the three stages of a tick as
    methods that change it, and what a tick as a whole does to the store and
    the nonce. */
module SwapEngine {
  import opened Wrappers
  import opened Records
  import Erc20
  import Solar
  import opened Ingestion
  import opened Tracking
  import opened Settlement

  /** The interval after the last successful send beyond which a tick reloads
      the nonce from the ledger, in milliseconds. */
  const NonceRefreshAfter := 900000

  /** Everything one tick receives from outside: the clock when it starts,
      the wallet answer `getCurrentNonce` reads, for each chain the list
      `getRecentTransactions` gives (see `Erc20.RecentTransactions`) and the
      answers its scan receives, the settlement answers and the tracker's. */
  datatype TickEnv = TickEnv(
    start: int,
    wallet: Solar.WalletReply,
    ethList: Result<seq<Erc20.Entry>>, eth: ScanAnswers,
    bscList: Result<seq<Erc20.Entry>>, bsc: ScanAnswers,
    ledger: Ledger,
    track: TrackAnswers)

  /** How a tick ended: a rejected promise ended it early, a send that never
      settles keeps it waiting before tracking, or all three stages ran. */
  datatype TickStatus = Aborted | Stalled | Completed

  datatype TickResult = TickResult(engine: Engine, attempts: seq<Attempt>, status: TickStatus)

  /** The tick reloads the nonce. */
  predicate Refreshes(e: Engine, env: TickEnv) {
    env.start - e.lastSend > NonceRefreshAfter
  }

  /** The nonce `getCurrentNonce` settles with, when the tick reloads it. */
  function Reload(env: TickEnv): Result<Option<nat>> {
    Solar.GetCurrentNonce(env.wallet)
  }

  /** One scan of a chain: the list's deposits ingested in order, or the
      store as it was when the list could not be fetched. */
  function Scan(store: Store, list: Result<seq<Erc20.Entry>>, cfg: ChainConfig, ans: ScanAnswers): Store {
    if list.Ok? then IngestAll(store, list.value, cfg, ans) else store
  }

  /** One run of `_run`: nonce refresh, then ETH and BSC ingestion, then
      settlement, then tracking; a rejected promise skips every later stage. */
  function Tick(e: Engine, env: TickEnv, eth: ChainConfig, bsc: ChainConfig): TickResult {
    if Refreshes(e, env) && Reload(env).Fail? then TickResult(e, [], Aborted)
    else
      var e1 := if Refreshes(e, env) then e.(nonce := Reload(env).value) else e;
      var e2 := e1.(store := Scan(e1.store, env.ethList, eth, env.eth));
      if env.ethList.Fail? then TickResult(e2, [], Aborted)
      else
        var e3 := e2.(store := Scan(e2.store, env.bscList, bsc, env.bsc));
        if env.bscList.Fail? then TickResult(e3, [], Aborted)
        else
          var s := Settle(e3, env.ledger);
          if s.stop.HungAt? then TickResult(s.engine, s.attempts, Stalled)
          else TickResult(s.engine.(store := Track(s.engine.store, env.track)), s.attempts, Completed)
  }

  /** The engine: the store of swap records, `currentNonce` and `lastSend`,
      and the two chains it watches. */
  class Swapper {
    var store: Store
    var currentNonce: Option<nat>
    var lastSend: int
    const eth: ChainConfig
    const bsc: ChainConfig

    /** Start-up: the records the database already holds (earlier runs'
        records, locked ones included), the nonce the ledger gave and the clock. */
    constructor (eth: ChainConfig, bsc: ChainConfig, init: Store, nonce: Option<nat>, now: int)
      ensures store == init && currentNonce == nonce && lastSend == now
      ensures this.eth == eth && this.bsc == bsc
    {
      store := init;
      currentNonce := nonce;
      lastSend := now;
      this.eth := eth;
      this.bsc := bsc;
    }

    function State(): Engine
      reads this
    {
      Engine(store, currentNonce, lastSend)
    }

    /** `_checkNewTransactions` for one chain: each listed deposit the store
        does not know is fetched, and an accepted one becomes a new record. */
    method CheckNewTransactions(cfg: ChainConfig, list: Result<seq<Erc20.Entry>>, ans: ScanAnswers) returns (ok: bool)
      modifies this
      ensures ok == list.Ok?
      ensures store == Scan(old(store), list, cfg, ans)
      ensures currentNonce == old(currentNonce) && lastSend == old(lastSend)
    {
      if list.Fail? {
        return false;
      }
      var txlist := list.value;
      var i := 0;
      while i < |txlist|
        invariant 0 <= i <= |txlist|
        invariant store == IngestAll(old(store), txlist[..i], cfg, ans)
        invariant currentNonce == old(currentNonce) && lastSend == old(lastSend)
      {
        assert txlist[..i + 1][..i] == txlist[..i];
        var thisTransaction := txlist[i];
        if !HasTransaction(store, thisTransaction.id) {
          var transaction := ans.fetch(thisTransaction.id);
          if transaction.Ok?
             && transaction.value.details[0].contract == cfg.contracts.swapContract
             && transaction.value.details[0].tokenId == cfg.contracts.token
          {
            var validAddress := ans.validate(transaction.value.details[0].message);
            store := store + [NewRecord(cfg.network, transaction.value, validAddress, ans.now)];
          }
        }
        i := i + 1;
      }
      assert txlist[..i] == txlist;
      ok := true;
    }

    /** One pass of the batch loop for the record at `id`, read as `thisSwap`
        when the batch was fetched and at position `k` of the batch: the
        listed payouts are searched for an earlier payout, then the balance
        is checked, then the record is locked and the payout sent. */
    method SwapOne(k: nat, id: nat, thisSwap: SwapRecord, ledger: Ledger) returns (sent: seq<Attempt>, stop: Stop)
      requires id < |store| && store[id] == thisSwap
      modifies this
      ensures Settled(State(), sent, stop) == SettleOne(old(State()), k, id, GateOf(thisSwap, k, ledger), ledger)
    {
      sent, stop := [], Done;
      var checkTimestamp := CheckTimestamp(thisSwap.confirmedAt);
      var checkTransactions := ledger.payouts(k, thisSwap.swapAddress, checkTimestamp);
      var swapFound := FindEarlierPayout(checkTransactions, Tag(thisSwap));
      if swapFound.Some? {
        store := store[id := Paid(store[id], swapFound.value)];
        return;
      }
      if !BalanceOk(ledger.balance(k), thisSwap.quantity) {
        return;
      }
      store := store[id := store[id].(isSwapped := true)];
      if currentNonce.None? {
        store := store[id := SendFailed(store[id])];
        stop := FailedAt(id);
        return;
      }
      currentNonce := Some(currentNonce.value + 1);
      var request := SendRequest(thisSwap.swapAddress, Tag(thisSwap), thisSwap.quantity, currentNonce.value);
      var outcome := ledger.send(k, request);
      sent := [Attempt(k, id, request, outcome)];
      match outcome {
        case Resolved(txid) =>
          var now := ledger.now(k);
          store := store[id := store[id].(isSwapped := true, swappedAt := now, swapTransactionId := txid)];
          lastSend := now;
        case Rejected(_) =>
          store := store[id := SendFailed(store[id])];
          stop := FailedAt(id);
        case Unsettled =>
          stop := HungAt(id);
      }
    }

    /** `swapConfirmedTransactions`: the batch of settleable records is read
        once, then each is settled in turn until a send fails or never
        settles; the sends made and how the batch ended are exactly as
        `Settle` describes. */
    method SwapConfirmedTransactions(ledger: Ledger) returns (attempts: seq<Attempt>, stop: Stop)
      modifies this
      ensures Settled(State(), attempts, stop) == Settle(old(State()), ledger)
    {
      var pendingRecords := Batch(store);
      var snapshot := store;
      ghost var gates := Gates(snapshot, pendingRecords, ledger);
      attempts, stop := [], Done;
      assert Settle(old(State()), ledger) == Joined([], SettleFrom(State(), pendingRecords, gates, 0, ledger));
      var i := 0;
      while i < |pendingRecords|
        invariant 0 <= i <= |pendingRecords|
        invariant |store| == |snapshot| && BatchOf(pendingRecords, store)
        invariant forall p | i <= p < |pendingRecords| :: store[pendingRecords[p]] == snapshot[pendingRecords[p]]
        invariant stop == Done
        invariant Settle(old(State()), ledger) == Joined(attempts, SettleFrom(State(), pendingRecords, gates, i, ledger))
      {
        var id := pendingRecords[i];
        ghost var before := State();
        var sent, ended := SwapOne(i, id, snapshot[id], ledger);
        ghost var one := SettleOne(before, i, id, gates[i], ledger);
        assert Settled(State(), sent, ended) == one;
        if !ended.Done? {
          attempts, stop := attempts + sent, ended;
          break;
        }
        JoinedStep(attempts, one, SettleFrom(one.engine, pendingRecords, gates, i + 1, ledger));
        attempts := attempts + sent;
        i := i + 1;
      }
    }

    /** `checkPendingTransactions`: every pending record is looked up on its
        chain and promoted once it is deep enough, as `Track` describes. */
    method CheckPendingTransactions(ans: TrackAnswers)
      modifies this
      ensures store == Track(old(store), ans)
      ensures currentNonce == old(currentNonce) && lastSend == old(lastSend)
    {
      var pendingSwaps := Select(store, Pending, |store|);
      var snapshot := store;
      var i := 0;
      while i < |pendingSwaps|
        invariant 0 <= i <= |pendingSwaps|
        invariant |store| == |snapshot|
        invariant forall j | 0 <= j < |snapshot| ::
          store[j] == (if j in pendingSwaps[..i] then TrackOne(snapshot[j], ans) else snapshot[j])
        invariant currentNonce == old(currentNonce) && lastSend == old(lastSend)
      {
        var id := pendingSwaps[i];
        var pendingSwap := snapshot[id];
        assert id !in pendingSwaps[..i] by {
          forall q | 0 <= q < i ensures pendingSwaps[q] != id {
          }
        }
        var transaction := Lookup(pendingSwap, ans);
        if transaction.Ok? && transaction.value.confirmations > TrackThreshold {
          store := store[id := store[id].(confirmations := transaction.value.confirmations,
                                          isConfirmed := true, confirmedAt := ans.now)];
        }
        assert pendingSwaps[..i + 1] == pendingSwaps[..i] + [id];
        i := i + 1;
      }
      assert pendingSwaps[..i] == pendingSwaps;
    }

    /** One tick (`_run`): the nonce refresh and the three stages in order,
        exactly as `Tick` describes. */
    method Run(env: TickEnv) returns (attempts: seq<Attempt>, status: TickStatus)
      modifies this
      ensures TickResult(State(), attempts, status) == Tick(old(State()), env, eth, bsc)
    {
      if env.start - lastSend > NonceRefreshAfter {
        var reload := Solar.GetCurrentNonce(env.wallet);
        if reload.Fail? {
          return [], Aborted;
        }
        currentNonce := reload.value;
      }
      var ok := CheckNewTransactions(eth, env.ethList, env.eth);
      if !ok {
        return [], Aborted;
      }
      ok := CheckNewTransactions(bsc, env.bscList, env.bsc);
      if !ok {
        return [], Aborted;
      }
      var stop;
      attempts, stop := SwapConfirmedTransactions(env.ledger);
      if stop.HungAt? {
        return attempts, Stalled;
      }
      CheckPendingTransactions(env.track);
      status := Completed;
    }
  }

  /** The sends made so far followed by what the rest of the batch does. */
  function Joined(done: seq<Attempt>, s: Settled): Settled {
    Settled(s.engine, done + s.attempts, s.stop)
  }

  lemma JoinedStep(done: seq<Attempt>, one: Settled, rest: Settled)
    ensures Joined(done, Settled(rest.engine, one.attempts + rest.attempts, rest.stop))
         == Joined(done + one.attempts, rest)
  {
    assert done + (one.attempts + rest.attempts) == (done + one.attempts) + rest.attempts;
  }

  /** What a record may become over time: its deposit fields never change, a
      confirmation is never taken back, and a record in error, or swapped
      after its confirmation, is never touched again. */
  predicate Evolves(before: SwapRecord, after: SwapRecord) {
    && after.network == before.network && after.senderAddress == before.senderAddress
    && after.tokenId == before.tokenId && after.transactionId == before.transactionId
    && after.quantity == before.quantity && after.swapAddress == before.swapAddress
    && (before.isConfirmed ==>
          after.isConfirmed && after.confirmations == before.confirmations && after.confirmedAt == before.confirmedAt)
    && (before.isError ==> after == before)
    && (before.isSwapped && before.isConfirmed ==> after == before)
  }

  /** Every record of `before` is still in `after`, at the same id, and has
      only evolved. */
  predicate StoreEvolves(before: Store, after: Store) {
    |before| <= |after| && forall j | 0 <= j < |before| :: Evolves(before[j], after[j])
  }

  lemma StoreEvolvesTrans(s0: Store, s1: Store, s2: Store)
    requires StoreEvolves(s0, s1) && StoreEvolves(s1, s2)
    ensures StoreEvolves(s0, s2)
  {
    forall j | 0 <= j < |s0| ensures Evolves(s0[j], s2[j]) {
      assert Evolves(s0[j], s1[j]) && Evolves(s1[j], s2[j]);
    }
  }

  /** A scan only appends. */
  lemma ScanEvolves(store: Store, list: Result<seq<Erc20.Entry>>, cfg: ChainConfig, ans: ScanAnswers)
    ensures StoreEvolves(store, Scan(store, list, cfg, ans))
  {
    if list.Ok? {
      var r := IngestAll(store, list.value, cfg, ans);
      IngestKeepsExisting(store, list.value, cfg, ans);
      forall j | 0 <= j < |store| ensures Evolves(store[j], r[j]) {
        assert r[j] == r[..|store|][j];
      }
    }
  }

  /** Settlement touches only settleable records of its batch, and only
      their payout fields. */
  lemma SettleEvolves(e: Engine, ledger: Ledger)
    ensures |Settle(e, ledger).engine.store| == |e.store|
    ensures StoreEvolves(e.store, Settle(e, ledger).engine.store)
  {
    var batch, after := Batch(e.store), Settle(e, ledger).engine.store;
    SettleSkips(e, ledger);
    forall j | 0 <= j < |e.store| ensures Evolves(e.store[j], after[j]) {
      assert SameDeposit(after[j], e.store[j]);
      if j in batch {
        var p :| 0 <= p < |batch| && batch[p] == j;
        assert Settleable(e.store[batch[p]]);
      }
    }
  }

  /** Tracking touches only pending records. */
  lemma TrackEvolves(store: Store, ans: TrackAnswers)
    ensures |Track(store, ans)| == |store|
    ensures StoreEvolves(store, Track(store, ans))
  {
  }

  /** Over a whole tick, whatever way it ends, every stored record only
      evolves: deposits are never rewritten, confirmations never withdrawn,
      and records in error or already swapped are final. */
  lemma TickEvolves(e: Engine, env: TickEnv, eth: ChainConfig, bsc: ChainConfig)
    ensures StoreEvolves(e.store, Tick(e, env, eth, bsc).engine.store)
  {
    if !(Refreshes(e, env) && Reload(env).Fail?) {
      var e1 := if Refreshes(e, env) then e.(nonce := Reload(env).value) else e;
      var e2 := e1.(store := Scan(e1.store, env.ethList, eth, env.eth));
      var e3 := e2.(store := Scan(e2.store, env.bscList, bsc, env.bsc));
      ScanEvolves(e1.store, env.ethList, eth, env.eth);
      ScanEvolves(e2.store, env.bscList, bsc, env.bsc);
      StoreEvolvesTrans(e.store, e2.store, e3.store);
      if env.ethList.Ok? && env.bscList.Ok? {
        var s := Settle(e3, env.ledger);
        SettleEvolves(e3, env.ledger);
        StoreEvolvesTrans(e.store, e3.store, s.engine.store);
        TrackEvolves(s.engine.store, env.track);
        StoreEvolvesTrans(e.store, s.engine.store, Track(s.engine.store, env.track));
      }
    }
  }

  /** A tick keeps every record well formed. */
  lemma TickWellFormed(e: Engine, env: TickEnv, eth: ChainConfig, bsc: ChainConfig)
    requires AllWellFormed(e.store)
    ensures AllWellFormed(Tick(e, env, eth, bsc).engine.store)
  {
    if !(Refreshes(e, env) && Reload(env).Fail?) {
      var e1 := if Refreshes(e, env) then e.(nonce := Reload(env).value) else e;
      var e2 := e1.(store := Scan(e1.store, env.ethList, eth, env.eth));
      var e3 := e2.(store := Scan(e2.store, env.bscList, bsc, env.bsc));
      if env.ethList.Ok? {
        IngestWellFormed(e1.store, env.ethList.value, eth, env.eth);
      }
      if env.ethList.Ok? && env.bscList.Ok? {
        IngestWellFormed(e2.store, env.bscList.value, bsc, env.bsc);
        SettleKeepsWellFormed(e3, env.ledger);
      }
    }
  }

  /** Two stores of the same length whose records carry the same
      transaction ids in the same places. */
  lemma SameIdsUnique(before: Store, after: Store)
    requires UniqueIds(before) && StoreEvolves(before, after) && |after| == |before|
    ensures UniqueIds(after)
  {
    forall i, j | 0 <= i < j < |after| ensures after[i].transactionId != after[j].transactionId {
      assert Evolves(before[i], after[i]) && Evolves(before[j], after[j]);
    }
  }

  /** When each adapter answers for the transaction it was asked about, a
      tick never stores a deposit twice. */
  lemma TickUnique(e: Engine, env: TickEnv, eth: ChainConfig, bsc: ChainConfig)
    requires UniqueIds(e.store) && Consistent(env.eth) && Consistent(env.bsc)
    ensures UniqueIds(Tick(e, env, eth, bsc).engine.store)
  {
    if !(Refreshes(e, env) && Reload(env).Fail?) {
      var e1 := if Refreshes(e, env) then e.(nonce := Reload(env).value) else e;
      var e2 := e1.(store := Scan(e1.store, env.ethList, eth, env.eth));
      var e3 := e2.(store := Scan(e2.store, env.bscList, bsc, env.bsc));
      if env.ethList.Ok? {
        IngestUnique(e1.store, env.ethList.value, eth, env.eth);
      }
      if env.ethList.Ok? && env.bscList.Ok? {
        IngestUnique(e2.store, env.bscList.value, bsc, env.bsc);
        var s := Settle(e3, env.ledger);
        SettleEvolves(e3, env.ledger);
        SameIdsUnique(e3.store, s.engine.store);
        TrackEvolves(s.engine.store, env.track);
        SameIdsUnique(s.engine.store, Track(s.engine.store, env.track));
      }
    }
  }

  /** The nonce a tick's sends start from: the reloaded one when the last
      send is old enough and the reload succeeds, the kept one otherwise. */
  function BaseNonce(e: Engine, env: TickEnv): Option<nat> {
    if Refreshes(e, env) && Reload(env).Ok? then Reload(env).value else e.nonce
  }

  /** Sends numbered one after another from `base`, ending on `nonce`;
      none without a known nonce. */
  predicate NoncesFrom(base: Option<nat>, sent: seq<Attempt>, nonce: Option<nat>) {
    && (base.None? ==> sent == [] && nonce == None)
    && (base.Some? ==>
          && nonce == Some(base.value + |sent|)
          && forall i | 0 <= i < |sent| :: sent[i].request.nonce == base.value + i + 1)
  }

  /** The nonce after a tick: without a known nonce nothing is sent; with one,
      the sends of the tick use the nonces after it one by one and the engine
      ends on the last of them. A tick cut short by a rejected promise sends
      nothing, and the nonce is reloaded only when the last send is more than
      fifteen minutes old. */
  lemma TickNonce(e: Engine, env: TickEnv, eth: ChainConfig, bsc: ChainConfig)
    ensures var t, base := Tick(e, env, eth, bsc), BaseNonce(e, env);
      && (t.status.Aborted? ==> t.attempts == [] && t.engine.nonce == base)
      && NoncesFrom(base, t.attempts, t.engine.nonce)
      && (!Refreshes(e, env) ==> base == e.nonce)
  {
    if !(Refreshes(e, env) && Reload(env).Fail?) && env.ethList.Ok? && env.bscList.Ok? {
      var e1 := if Refreshes(e, env) then e.(nonce := Reload(env).value) else e;
      var e2 := e1.(store := Scan(e1.store, env.ethList, eth, env.eth));
      var e3 := e2.(store := Scan(e2.store, env.bscList, bsc, env.bsc));
      SettleNonce(e3, env.ledger);
    }
  }

  /** The reload is `getCurrentNonce` on the wallet answer: when the fetch
      fails or the answer has no `data` the tick ends before any stage with
      the engine untouched; otherwise the tick's sends start from the wallet's
      nonce field. */
  lemma TickReload(e: Engine, env: TickEnv, eth: ChainConfig, bsc: ChainConfig)
    ensures Refreshes(e, env) && !env.wallet.Wallet? ==> Tick(e, env, eth, bsc) == TickResult(e, [], Aborted)
    ensures Refreshes(e, env) && env.wallet.Wallet? ==> BaseNonce(e, env) == env.wallet.nonce
  {
  }

  /** The nonces of settlement's sends, one after another from the engine's. */
  lemma SettleNonce(e: Engine, ledger: Ledger)
    ensures var s := Settle(e, ledger); NoncesFrom(e.nonce, s.attempts, s.engine.nonce)
  {
    SettleSends(e, ledger);
  }
}

=== FILE: tracking.dfy ===
/** Confirmation tracking (`checkPendingTransactions`, src/swapper.ts): every
    pending record is looked up again on its own chain and promoted once it
    has more than `TrackThreshold` confirmations. */
module Tracking {
  import opened Wrappers
  import opened Records
  import Erc20

  /** The answers of the ETH and BSC adapters' `getTransaction`, by
      transaction id, and the clock read when the stage starts. */
  datatype TrackAnswers = TrackAnswers(eth: string -> Result<Erc20.TxInfo>,
                                       bsc: string -> Result<Erc20.TxInfo>, now: nat)

  /** The chain a record is looked up on: ETH for "eth", BSC for anything else. */
  function Lookup(r: SwapRecord, ans: TrackAnswers): Result<Erc20.TxInfo> {
    if r.network == "eth" then ans.eth(r.transactionId) else ans.bsc(r.transactionId)
  }

  /** The lookup shows the deposit deep enough to promote its record. */
  predicate Promotes(r: SwapRecord, ans: TrackAnswers) {
    Lookup(r, ans).Ok? && Lookup(r, ans).value.confirmations > TrackThreshold
  }

  /** The update the tracker makes to one pending record. */
  function TrackOne(r: SwapRecord, ans: TrackAnswers): SwapRecord {
    if Promotes(r, ans) then
      r.(confirmations := Lookup(r, ans).value.confirmations, isConfirmed := true, confirmedAt := ans.now)
    else r
  }

  /** The store after tracking: only pending records change, only when the
      lookup succeeds with more than `TrackThreshold` confirmations, and then
      only their confirmations, confirmation flag and time. */
  function Track(store: Store, ans: TrackAnswers): (r: Store)
    ensures |r| == |store|
    ensures forall j | 0 <= j < |store| && !(Pending(store[j]) && Promotes(store[j], ans)) :: r[j] == store[j]
    ensures forall j | 0 <= j < |store| && Pending(store[j]) && Promotes(store[j], ans) ::
      && r[j].isConfirmed && r[j].confirmedAt == ans.now
      && r[j].confirmations == Lookup(store[j], ans).value.confirmations > TrackThreshold
      && r[j] == store[j].(confirmations := r[j].confirmations, isConfirmed := true, confirmedAt := ans.now)
    ensures AllWellFormed(store) ==> AllWellFormed(r)
  {
    seq(|store|, j requires 0 <= j < |store| => if Pending(store[j]) then TrackOne(store[j], ans) else store[j])
  }
}

=== FILE: wrappers.dfy ===
/** Optional values and the settled outcome of a promise. */
module Wrappers {

  datatype Option<+T> = None | Some(value: T) {
    function GetOr(default: T): T {
      match this
      case Some(v) => v
      case None => default
    }
  }

  /** Why a promise was rejected: a message the code passes to `reject`, or an
      exception thrown by a request or a library and passed on unchanged. */
  datatype Reason = Message(text: string) | Thrown

  /** A promise that resolved with a value or was rejected. */
  datatype Result<+T> = Ok(value: T) | Fail(reason: Reason)
}
